=== FILE: README.md ===
# Smartbot trading-signal dashboard — verified model of its logic

The dashboard is a React single-page application that shows a simulated
forex chart, a countdown to the next scheduled trading signal (11:00, 16:00
and 21:00 Moscow time), four signal buttons with cooldowns, and a signal
panel that produces a random "binary option" signal. Under the rendering
sits a small amount of logic. This project models that logic in Dafny and
proves properties of it:

- **Cooldowns** (`src/App.tsx`): the four signal categories (express,
  hourly, five-hour, twenty-four-hour). Each has a `canUse` flag, the
  instant of its last trigger and a whole-second countdown. The module also
  holds the shared trigger counter, the express recommendation and the
  `hh:mm:ss` formatter. The chart is mounted under a key made of the
  selected pair and that counter, so every pair change and every successful
  trigger discards the chart and mounts a fresh one.
- **Candles**, **Indicators** and **Chart** (`src/components/Chart.tsx`):
  - the seeded random walk of fifty candles;
  - the live step that replaces the oldest candle;
  - `calculateIndicators` (SMA 20/50, EMA 12/26, a 14-period RSI, MACD with
    its signal line, Bollinger bands);
  - the chart state: mounting (playing, 1247 waiting users, a freshly
    seeded window), re-mounting on a key change, and ticks. The chart also
    defines a play/pause handler that no element calls, and keeps a
    waiting-users counter it never renders; both are modelled as the code
    defines them, but neither is visible.
- **Schedule** (`src/components/Timer.tsx`): the next-signal search, the
  countdown, the hundredths counter and the waiting-users toggle.
- **Strategy** (`src/components/StrategyAnalysis.tsx`):
  - the scheduled signal window and the generated signal's fields;
  - the progress bar;
  - the status-line and block-colour helpers, which the panel defines but
    never calls, so neither shows on screen;
  - the typewriter;
  - the strategy lookup;
  - the colour choices.
- **Crowd**: the waiting-users drift. The chart and the timer each keep
  their own counter with the same drift rule; only the timer's is shown.
- **Clock**, **Text**, **Pairs** and **Common**: UTC and Moscow wall-clock
  arithmetic, decimal rendering with `padStart`, the twenty currency pairs,
  and small shared definitions.

The model treats the dashboard's external inputs as follows:

- Timers and effects become explicit events, such as a tick, a timeout or a
  button press.
- `Math.random()` becomes a parameter: a real in [0, 1) (`IsDraw`).
- `Date.now()` becomes an integer of epoch milliseconds, one per
  computation (see "## Left out").
- `Math.sqrt` becomes a function parameter `sqrt`.
- Prices are exact reals.
- Moscow time is the current instant shifted by three hours, read through
  its UTC fields, as in the source.

Where the comments and documentation around the code describe a different
behaviour, the model follows the code:

- A countdown that reaches zero does **not** make its category usable
  again. Only the expiry timeout does that, or, for express, the elapsed
  check. As a result, "usable exactly when the countdown is zero" is not an
  invariant. The invariant that does hold is "usable exactly when no
  trigger instant is recorded" (`Cooldowns.Inv`).
- Before twenty closes exist, the 20-period SMA is the current close, not an
  average of the closes available.
- Bollinger bands start at the twentieth candle (index 19).

## Model

| member | source | states |
|---|---|---|
| Cooldowns.Trigger | src/App.tsx:89-176 | A press while the category is locked changes nothing. A ready press locks the category, records `now`, starts the countdown at 900/3600/18000/86400 s and bumps the shared counter by exactly one. The other three categories are unchanged. Express also sets a recommended pair from the twenty-pair list; the other categories keep the recommendation. |
| Cooldowns.Tick | src/App.tsx:191-249 | A one-second tick maps t>1 to t-1 and t=1 to 0. It does nothing when t<=0 and never goes negative. It never changes `canUse`, the last-trigger instant, other categories, the counter or the recommendation. |
| Cooldowns.Expire | src/App.tsx:119-123 | The expiry timeout makes the category usable, clears its trigger instant and zeroes its countdown. Nothing else changes. |
| Cooldowns.ExpressElapsedCheck | src/App.tsx:178-189 | Fires exactly when a non-zero last express instant is at least 900000 ms old. It then unlocks express and clears the instant but keeps the countdown. Otherwise the board is unchanged. |
| Cooldowns.ClearRecommendation | src/App.tsx:104-107 | The 30-second timeout clears the recommendation. Every category and the counter are untouched. |
| Cooldowns.RunPreservesInv | src/App.tsx:32-44 | Every event sequence keeps the board invariant and never decreases the counter. The invariant: each countdown in [0, duration]; usable exactly when no trigger instant is recorded; a usable non-express category shows 0; recommendation in the list. |
| Cooldowns.TicksCountDown | src/App.tsx:208-221 | n ticks take a countdown t>=0 to max(0, t-n). The lock, the trigger instant and every other category are unchanged, so reaching zero does not unlock. |
| Cooldowns.HourlyScenario | src/App.tsx:127-142 | Press hourly, then 3600 ticks: the category is locked at 0 with its trigger instant kept. Only the expiry timeout returns it to ready. |
| Cooldowns.FormatTime | src/App.tsx:251-256 | `formatTime` yields `h…h:mm:ss`. The hour field has max(2, number of hour digits) characters. The minute and second fields have two digits each, with values below 60. Parsing the text back gives the input number of seconds. |
| Cooldowns.FormatTimeUnique | src/App.tsx:251-256 | Those properties determine the text: any text that has them is the formatted one. |
| Text.FixedWidthUnique | src/App.tsx:255 | Two digit strings of the same length and value are equal, so a padded field is fixed by its width and number. |
| Cooldowns.Pad2 | src/App.tsx:255 | `n.toString().padStart(2, '0')` is an all-digit string of exactly max(2, number of digits of n) characters whose decimal value is n. It is exactly 2 characters below 60. |
| Text.DecimalRoundTrip | src/App.tsx:255 | Reading back the decimal rendering of n gives n. |
| Text.PadKeepsValue | src/App.tsx:255 | Left-padding digits with '0' keeps them digits and keeps their value. |
| Text.PadStartShape | src/App.tsx:255 | `padStart` puts fill characters on the left and keeps the original string as a suffix. |
| Pairs.RandomPair | src/App.tsx:90-97 | A uniform draw selects a pair from the fixed list of twenty. |
| Pairs.RandomPairCovers | src/components/StrategyAnalysis.tsx:52 | Every pair of the list is reachable: every draw in [k/20, (k+1)/20) selects the k-th pair. |
| Candles.NextCandle | src/components/Chart.tsx:116-128 | One walk candle opens at the given price and closes at open plus the walk's signed move. Its high is at least max(open, close) and its low at most min(open, close). It closes above its open exactly when the direction draw exceeds the threshold, and below otherwise. For both walks the wicks stay below the wick bound and the volume lies in [base, base+span). |
| Candles.MoveSize | src/components/Chart.tsx:119-121 | A seeded candle moves by at least 0.00025 and less than 0.00225. A live candle moves by at least 0.00015 and less than 0.002. |
| Candles.GenerateInitial | src/components/Chart.tsx:112-136 | Exactly fifty candles, timed 250 s down to 5 s before `now`. The first opens at 1.0850 and each opens at the previous close. All are well formed with volume in [1000, 6000), and each is the walk candle of its draws. |
| Candles.LiveStep | src/components/Chart.tsx:142-166 | Keeps the window length and drops the oldest candle. Appends the live-walk candle of the draws, stamped `now` and opening at the previous last close. That candle is well formed, with volume in [800, 4800). An empty window has no result. |
| Candles.LiveStepKeepsChained | src/components/Chart.tsx:143-166 | A chained window stays chained after a live step. |
| Candles.LiveStepsShift | src/components/Chart.tsx:165 | After n <= length steps the window length is unchanged and the surviving candles have moved n places to the front (first in, first out). |
| Candles.LiveStepKeepsWellFormed | src/components/Chart.tsx:150-151 | A live step keeps every candle of the window well formed. |
| Indicators.CalculateIndicators | src/components/Chart.tsx:53-110 | The loop yields one snapshot per candle, equal to the recursively defined series. |
| Indicators.SeriesPrefix | src/components/Chart.tsx:56-57 | No look-ahead: the series of a prefix of the closes is the prefix of the series. |
| Indicators.SeriesAt | src/components/Chart.tsx:56-106 | Snapshot i is computed from closes[0..i] and snapshot i-1 only. |
| Indicators.SeriesAverages | src/components/Chart.tsx:62-63 | SMA20 is the mean of the last 20 closes from the twentieth candle on, SMA50 the mean of the last 50 from the fiftieth; before that each is the current close. |
| Indicators.SeriesSmoothing | src/components/Chart.tsx:65-83 | EMA12/26 start at the first close and smooth with 2/13 and 2/27; a zero previous value falls back to the first close. MACD is their difference, so at index 0 both MACD and signal are 0. The signal smooths MACD with 0.2; a zero previous value falls back to the current MACD. |
| Indicators.AveragesWithinRange | src/components/Chart.tsx:62-63 | When all closes lie in [lo, hi], both SMAs lie in [lo, hi]. |
| Indicators.EmasWithinRange | src/components/Chart.tsx:65-66 | When all closes lie in [lo, hi], both EMAs stay in [lo, hi], whether or not the zero fallback fires. |
| Indicators.EmaFallbackNeverFires | src/components/Chart.tsx:65-66 | With closes in [lo, hi] and lo > 0, the previous EMAs are never zero. So the `||` fallback keeps them, and each EMA smooths the previous one itself. |
| Indicators.Rsi | src/components/Chart.tsx:68-80 | RSI is in [0, 100], and 50 before fifteen closes. Afterwards it is 100 exactly when the last fourteen changes contain no fall; otherwise it equals 100·G/(G+L) over the summed gains G and losses L. |
| Indicators.RsiOfSeries | src/components/Chart.tsx:68-80 | Every snapshot's RSI is a percentage: 50 for i<14, and for i>=14 equal to 100 exactly when closes[i-14..i] hold no fall. |
| Indicators.BandsOfSeries | src/components/Chart.tsx:85-95 | For i<19 all three bands equal the close. From i=19 the middle is the SMA20 and the bands are symmetric. When the square root is non-negative, lower <= middle <= upper. |
| Indicators.FlatSeries | src/components/Chart.tsx:53-110 | On a flat market at any price x (at 0 the `||` fallback fires but yields 0 as well), every snapshot is (x, x, x, x, 50 or 100, 0, 0, bands x). |
| Chart.Mount | src/components/Chart.tsx:38-136 | A mounted chart is playing with 1247 waiting users. It holds fifty chained, well-formed candles opening at 1.0850, their indicators and the price at the last close. |
| Chart.Render | src/App.tsx:306-310 | With the same key the chart keeps its state. A changed key yields a freshly mounted chart: the window and the drifted counter are replaced, and the play flag is set. |
| Chart.TriggerRemountsChart | src/App.tsx:309 | The chart's key changes exactly when the pair changes or the press triggers a signal. |
| Chart.Tick | src/components/Chart.tsx:138-179 | A paused chart does not change (pausing is never reachable on screen). A playing chart drops the oldest candle and appends the live-walk candle opening at the previous close. It recomputes the indicators from the new window, sets the price to the new close, and sets the counter to its drift, in [100, 5000]. |
| Chart.TickPreservesInv | src/components/Chart.tsx:138-179 | From a seeded chart a tick never fails. Fifty chained, well-formed candles, indicators recomputed from them, the price at the last close and the counter in range all persist. |
| Chart.TogglePlay | src/components/Chart.tsx:181-183 | The never-called `togglePlayPause` handler flips the play flag and nothing else. |
| Chart.TogglePlayKeepsChart | src/components/Chart.tsx:138-183 | Pausing keeps the chart invariant. A paused chart's ticks change nothing, and two presses restore the state. |
| Crowd.Drift | src/components/Timer.tsx:100-104 | The waiting-users counter always lands in [100, 5000]. It moves by exactly the random step when that stays in range, and otherwise saturates at 5000 above or at 100 below. |
| Crowd.DriftIsSmall | src/components/Chart.tsx:169-173 | From inside the range, one drift moves the counter by between -25 and +24. |
| Schedule.FirstSlot | src/components/Timer.tsx:30-37 | The search result is the first slot that is a later hour, or this hour on the exact minute and second. No result means no slot qualifies. |
| Schedule.NextSignal | src/components/Timer.tsx:21-48 | The next signal instant is on the hour, its UTC fields read h:00:00.000, and h is one of 11, 16, 21. |
| Schedule.NextSignalNotBefore | src/components/Timer.tsx:21-48 | The next signal instant is never before the current Moscow second. |
| Schedule.NextSignalIsEarliest | src/components/Timer.tsx:21-48 | The next signal instant is the earliest slot instant at or after the current Moscow second, rolling to 11:00 the next day. |
| Schedule.SlotOnDay | src/components/Timer.tsx:39-45 | A slot hour on a day start is a slot instant whose fields read h:00:00.000. |
| Schedule.CalculateTimeLeft | src/components/Timer.tsx:50-73 | For a positive difference d, the countdown is d div 1000 seconds and reports maxTime 36000 and the slot hour. Otherwise it is 0 with no update. |
| Schedule.WholeSeconds | src/components/Timer.tsx:55-60 | Hours, minutes and seconds of a positive ms difference recombine to d div 1000. |
| Schedule.TimeLeftNeverEnds | src/components/Timer.tsx:52-53 | As written, the countdown is always at least 10799 s, because the shifted slot minus the unshifted now overstates the wait by three hours. |
| Schedule.CorrectedTimeLeft | src/components/Timer.tsx:50-73 | Countdown with the Moscow offset removed: d div 1000 seconds of the real wait. |
| Schedule.CorrectedReachesEnd | src/components/Timer.tsx:87-98 | One second before a slot, the corrected countdown reads 1, so the timer-end branch fires. The as-written countdown reads 10801. |
| Schedule.SecondTick | src/components/Timer.tsx:84-105 | The clock's one-second tick stores the recomputed countdown and slot hour when the next signal is in the future, and keeps both otherwise. It raises timer-end exactly when the countdown is at most 1, and then shows the entry point. The counter becomes its drift, within [100, 5000]. The hundredths counter and the waiting flag are untouched. |
| Schedule.SecondTickNeverEnds | src/components/Timer.tsx:87-98 | As written, the timer-end event never fires and the time left stays at least 10799. |
| Schedule.FormatTime | src/components/Timer.tsx:127-132 | Minutes and seconds are below 60 and recombine with the hours to the input. |
| Clock.UtcFields | src/components/Timer.tsx:25-28 | The UTC fields are in range and recombine to the instant's offset within its day. |
| Clock.SplitUnique | src/App.tsx:251-254 | The hours/minutes/seconds split is the only one with minutes and seconds below 60. |
| Schedule.MsAfterIsMod | src/components/Timer.tsx:80-82 | From 0, the hundredths counter after n ticks is n mod 100, so it stays in [0, 99]. |
| Schedule.MsTick | src/components/Timer.tsx:81 | One tick of the hundredths counter stays below 100 and wraps from 99 to 0. |
| Schedule.ToggleWait | src/components/Timer.tsx:113-125 | The 300 ms timeout acts on the flag captured at click time. Joining adds one user; leaving removes one but never goes below 100. The flag becomes the negation of the captured one. Nothing else changes. |
| Schedule.ToggleTwiceRestores | src/components/Timer.tsx:113-125 | Two clicks far apart, joining then leaving, restore a counter that was at least 100. |
| Schedule.DoubleClickJoinsTwice | src/components/Timer.tsx:113-125 | Two clicks within 300 ms both join: the counter grows by two and the flag ends up set. |
| Strategy.IsSignalTime | src/components/StrategyAnalysis.tsx:36-48 | Moscow hour in {11, 16, 21}, minute 0, second at most 10. |
| Strategy.SlotOf | src/components/StrategyAnalysis.tsx:36-48 | A signal time lies within the first eleven seconds after a slot instant. |
| Strategy.SlotWindowIsSignalTime | src/components/StrategyAnalysis.tsx:36-48 | Conversely, every instant in those eleven seconds is a signal time. |
| Strategy.GenerateSignal | src/components/StrategyAnalysis.tsx:51-67 | The pair is from the list and the expiration one of five. The direction is HIGHER exactly when its draw exceeds 0.5. The timestamp is now and the entry price is in [1.0800, 1.0900). |
| Strategy.SignalCovers | src/components/StrategyAnalysis.tsx:51-59 | Every pair, direction and expiration is produced by some draws. |
| Strategy.StrategyKey | src/components/StrategyAnalysis.tsx:81 | A listed pair looks up its own strategy. Any other string that is not an Object property name falls back to EUR/USD. |
| Strategy.TimerEndNeverFires | src/components/StrategyAnalysis.tsx:103-110 | The timer-end trigger (0 < timeLeft <= 1) never fires on the countdown the clock reports. |
| Strategy.PressGeneratesSignal | src/components/StrategyAnalysis.tsx:113-117 | A press on any button generates a panel signal exactly when that button was ready. |
| Strategy.Progress | src/components/StrategyAnalysis.tsx:151 | Progress lies in [0, 100] and is 0 when maxTime <= 0. |
| Strategy.ProgressInRange | src/components/StrategyAnalysis.tsx:151 | For 0 <= timeLeft <= maxTime the clamp is inactive: progress·maxTime = (maxTime-timeLeft)·100. |
| Strategy.ProgressMonotone | src/components/StrategyAnalysis.tsx:151 | Less time left never gives less progress. |
| Strategy.Status | src/components/StrategyAnalysis.tsx:159-165 | The never-called `getAnalysisStatus` helper is a step function with thresholds 25/50/75/95. It returns "Ready to trade!" exactly at progress >= 95 and "Initialization..." exactly below 25. |
| Strategy.StatusMonotone | src/components/StrategyAnalysis.tsx:159-165 | More progress never gives an earlier phase. |
| Strategy.StatusNeverReady | src/components/StrategyAnalysis.tsx:151-165 | Fed by the as-written clock, the visible progress bar stays below 75%, so the status helper would never get past "Trend analysis...". |
| Strategy.StartTyping | src/components/StrategyAnalysis.tsx:129-131 | A new typing run starts with nothing shown and the interval running, satisfying the typewriter invariant. |
| Strategy.TypeTick | src/components/StrategyAnalysis.tsx:136-144 | The display stays a prefix of the text. Each firing appends the next character. |
| Strategy.TypingProgress | src/components/StrategyAnalysis.tsx:129-148 | After n firings the first min(n, length) characters are shown, and typing stops on the firing after the last character. |
| Strategy.Generate | src/components/StrategyAnalysis.tsx:51-86 | Generation shows, blinking, exactly the signal `GenerateSignal` draws (listed pair, direction, expiration, `now`, entry price). It looks up that pair's strategy and restarts typing it. |
| Strategy.InitStrategy | src/components/StrategyAnalysis.tsx:120-126 | Only an empty strategy text is initialised, from the selected pair with the EUR/USD fallback. |
| Strategy.ClearSignal | src/components/StrategyAnalysis.tsx:71-74 | The 60-second timeout drops the signal and stops blinking and changes nothing else. |
| Strategy.PanelEventsKeepInv | src/components/StrategyAnalysis.tsx:51-148 | Generation, clearing, initialisation and typing each keep the panel invariant. The invariant: blinking exactly when a signal is shown, signal fields from their lists, the typed text being the strategy text, and the display a prefix of it. |
| Strategy.BlockColor | src/components/StrategyAnalysis.tsx:168-176 | The never-called `getBlockBackgroundColor` helper gives gray without a blinking signal. It is never green, because the direction is compared with "BUY". |
| Strategy.IntendedBlockColor | src/components/StrategyAnalysis.tsx:168-176 | Corrected: green exactly for a blinking HIGHER signal, red for a blinking LOWER one. |
| Strategy.CardTone | src/components/StrategyAnalysis.tsx:455-462 | The signal card, compared with "ВЫШЕ", is always red. |
| Strategy.LabelTone | src/components/StrategyAnalysis.tsx:489-492 | The direction text, compared with "HIGHER", is green exactly for HIGHER. |
| Strategy.IntendedCardTone | src/components/StrategyAnalysis.tsx:455-462 | Corrected: the card is green exactly for HIGHER, agreeing with the direction text. |
| Strategy.HigherCardContradictsLabel | src/components/StrategyAnalysis.tsx:457-478 | As written, a HIGHER signal gets a red card and down arrow next to a green "HIGHER" text, and the unused block helper would show red. The intended card and block are green. |

## Left out

- Rendering (JSX, SVG geometry, Tailwind classes), the `isPersonalSignalBlinking` blink loop (`src/App.tsx:258-267`) and the `signalGenerated` flag of `handleTimerEnd` (`src/App.tsx:84-87`): presentation only.
- The global error listeners (`src/App.tsx:47-82`), `src/main.tsx`, `src/hooks/useLanguage.ts`, `src/i18n/translations.ts`, and the currency and language selectors: no logic of the core.
- Floating-point rounding, `toFixed` and locale formatting: prices are exact reals. `Math.sqrt` is a parameter. Band ordering is proved only under the assumption that this parameter is non-negative on non-negative inputs.
- Timer scheduling and concurrency: events may interleave in any order. The model therefore over-approximates when a timeout can fire.
- Cooldowns.ExpressElapsedCheck: the dashboard runs this check only when the last express instant changes, that is right after a press, where it never fires. The model lets it run at any instant, so the invariant covers the wider set of histories. Within that over-approximation, express can be usable while its countdown still runs; the dashboard cannot reach that state.
- Schedule.SecondTick: the 3-second timeout after the timer-end branch, which restores the analysing display, is not modelled, because that branch is unreachable as written (see Findings).
- Strategy.TypingProgress: the source never cancels a typing run when a new one starts, so two runs can write the display at once. Only a single run is modelled.
- Strategy.Generate, Strategy.PanelEventsKeepInv: the panel holds a single typing run, and each generation replaces it. In the dashboard the earlier runs keep writing, because the cleanup the typewriter returns is never kept. During a scheduled slot the 1-second check generates a signal on each of up to eleven seconds, and each run takes about seven seconds, so several runs overlap. A press within about seven seconds of loading also overlaps the initial run. While runs overlap, the display can show a prefix of a different text than the current strategy text, and an older run can stop typing while a newer one is mid-text. The prefix and cursor parts of `PanelInv` therefore hold only for a single run, not for the dashboard during a slot.
- Strategy.StrategyKey: the lookup `strategies[key] || strategies['EUR/USD']` (`src/components/StrategyAnalysis.tsx:81`, `src/components/StrategyAnalysis.tsx:121`, `src/components/StrategyAnalysis.tsx:442`) returns an inherited `Object.prototype` member for keys such as "toString" or "constructor", and the panel would then fail. The model does not cover those keys. They cannot occur in the dashboard: generated pairs are always listed, and the selected pair is always EUR/USD because the chart never calls its pair-change callback. For the same reason the pair-change half of `Chart.TriggerRemountsChart` is not reachable in the dashboard; only a successful trigger re-mounts the chart.
- The strategy table's twenty prose entries: their texts are a parameter `strategyOf`. Only the key lookup and its fallback are modelled.
- The chart's unused play/pause handler (`src/components/Chart.tsx:181-183`), which no element calls, and the chart's own waiting-users counter (`src/components/Chart.tsx:43`, `src/components/Chart.tsx:169-173`), which is never rendered. Both are modelled as defined, but the paused branches of `Chart.Tick` and `Chart.TogglePlayKeepsChart` cannot be reached in the dashboard.
- The unused `progress` value inside the timer component (`src/components/Timer.tsx:136-137`), which is never rendered.
- Schedule.CalculateTimeLeft: the source reads the clock twice, once inside `getNextSignalTime` (`src/components/Timer.tsx:22`) and once for the difference (`src/components/Timer.tsx:51`). The model uses one instant for both, so it ignores the few milliseconds between the two reads.
- `Date` range limits (instants beyond ±8.64e15 ms): instants are unbounded integers.
- Candles.NextCandle: the wick and volume ranges are stated for the two walks the chart uses, not for arbitrary walk constants.

## Findings

| source | as written | input that shows it | evidently intended | confidence | as-written member | corrected member |
|---|---|---|---|---|---|---|
| src/components/Timer.tsx:52-53 | The next slot is built on the instant shifted by +3 h, but the unshifted `now` is subtracted from it, so the countdown overstates the wait by three hours and never drops below 10799 s. The timer-end branch (`newTimeLeft <= 1`), the entry-point display and the timer-end signal in the panel are therefore unreachable, and the progress bar never passes 75%. | now = 07:59:59 UTC (10:59:59 Moscow): the countdown reads 10801 s instead of 1 s | subtract the offset too, so the countdown is the real wait | high, not executed | Schedule.TimeLeftNeverEnds | Schedule.CorrectedReachesEnd |
| src/components/StrategyAnalysis.tsx:457,478 | The direction is always "HIGHER" or "LOWER", but the card gradient and the leading arrow compare it with "ВЫШЕ". That comparison can never match, so a HIGHER signal is shown on a red card with a down arrow next to a green "HIGHER". The never-called block-colour helper (line 171) makes the same mistake with "BUY", which is not visible. | any signal with direction HIGHER | compare with "HIGHER", as the direction text does | high, not executed | Strategy.HigherCardContradictsLabel | Strategy.IntendedCardTone |

=== FILE: candles.dfy ===
/** The simulated price feed of the chart: fifty seeded candles five seconds
    apart, then one new candle per tick replacing the oldest. Every random
    quantity is a uniform draw handed in by the caller. */
module Candles {
  import opened Common

  datatype Candle = Candle(time: int, open: real, high: real, low: real, close: real, volume: real)

  /** The closing prices of a candle list, in order. */
  function Closes(cs: seq<Candle>): (r: seq<real>)
    ensures |r| == |cs|
    ensures forall k :: 0 <= k < |cs| ==> r[k] == cs[k].close
  {
    seq(|cs|, k requires 0 <= k < |cs| => cs[k].close)
  }

  /** A candle whose high and low enclose its body. */
  predicate WellFormed(c: Candle)
  {
    c.low <= MinReal(c.open, c.close) && MaxReal(c.open, c.close) <= c.high
  }

  /** Each candle opens at the previous candle's close. */
  predicate Chained(cs: seq<Candle>)
  {
    forall k :: 0 < k < |cs| ==> cs[k].open == cs[k - 1].close
  }

  const BasePrice: real := 1.0850
  const InitialCount: nat := 50
  const InitialSpacingMs: int := 5000

  /** The six draws one candle consumes, in the order the chart draws them. */
  datatype CandleDraws = CandleDraws(
    volatility: real, direction: real, size: real,
    upperWick: real, lowerWick: real, volume: real)

  predicate ValidDraws(d: CandleDraws)
  {
    IsDraw(d.volatility) && IsDraw(d.direction) && IsDraw(d.size)
    && IsDraw(d.upperWick) && IsDraw(d.lowerWick) && IsDraw(d.volume)
  }

  /** The constants of one of the chart's two random walks:
      `volatility = baseVol + r * volSpan`, an up move when the direction
      draw exceeds `upThreshold`, a move of `volatility * (sizeBase + r *
      sizeSpan)`, wicks of up to `wick`, and `volume = volumeBase + r *
      volumeSpan`. */
  datatype WalkParams = WalkParams(
    baseVol: real, volSpan: real, upThreshold: real,
    sizeBase: real, sizeSpan: real, wick: real,
    volumeBase: real, volumeSpan: real)

  /** The seeding walk. */
  const SeedWalk: WalkParams := WalkParams(0.0005, 0.0010, 0.5, 0.5, 1.0, 0.0003, 1000.0, 5000.0)

  /** The live walk, slightly biased upwards and more volatile. */
  const LiveWalk: WalkParams := WalkParams(0.0005, 0.0015, 0.48, 0.3, 0.7, 0.0004, 800.0, 4000.0)

  predicate ValidWalk(p: WalkParams)
  {
    p.baseVol > 0.0 && p.volSpan >= 0.0 && p.sizeBase > 0.0 && p.sizeSpan >= 0.0
    && p.wick >= 0.0 && p.volumeSpan >= 0.0
  }

  /** The signed price move of one candle. */
  function Move(p: WalkParams, d: CandleDraws): real
  {
    var volatility := p.baseVol + d.volatility * p.volSpan;
    var direction := if d.direction > p.upThreshold then 1.0 else -1.0;
    direction * volatility * (p.sizeBase + d.size * p.sizeSpan)
  }

  /** One candle of a walk, opening at `open`. */
  function NextCandle(p: WalkParams, time: int, open: real, d: CandleDraws): (c: Candle)
    requires ValidWalk(p) && ValidDraws(d)
    ensures c.time == time && c.open == open && WellFormed(c)
    ensures c.close == open + Move(p, d)
    ensures c.close > c.open <==> d.direction > p.upThreshold
    ensures c.close < c.open <==> d.direction <= p.upThreshold
    ensures p == SeedWalk || p == LiveWalk ==>
      && c.high - MaxReal(c.open, c.close) < p.wick
      && MinReal(c.open, c.close) - c.low < p.wick
      && p.volumeBase <= c.volume < p.volumeBase + p.volumeSpan
  {
    MovePositive(p, d);
    DrawScale(d.upperWick, p.wick);
    DrawScale(d.lowerWick, p.wick);
    var close := open + Move(p, d);
    var top := MaxReal(open, close);
    var bottom := MinReal(open, close);
    var upper := d.upperWick * p.wick;
    var lower := d.lowerWick * p.wick;
    Candle(time, open, top + upper, bottom - lower, close, p.volumeBase + d.volume * p.volumeSpan)
  }

  /** A draw scales a non-negative span to a value below it. */
  lemma DrawScale(r: real, x: real)
    requires IsDraw(r) && x >= 0.0
    ensures 0.0 <= r * x <= x
    ensures x > 0.0 ==> r * x < x
  {
    assert x - r * x == (1.0 - r) * x;
  }

  lemma MovePositive(p: WalkParams, d: CandleDraws)
    requires ValidWalk(p) && ValidDraws(d)
    ensures d.direction > p.upThreshold ==> Move(p, d) > 0.0
    ensures d.direction <= p.upThreshold ==> Move(p, d) < 0.0
  {
    var volatility := p.baseVol + d.volatility * p.volSpan;
    var factor := p.sizeBase + d.size * p.sizeSpan;
    assert volatility > 0.0 && factor > 0.0;
    assert volatility * factor > 0.0;
  }

  /** `a * b` for `a` in [a0, a1) and `b` in [b0, b1), both ranges positive. */
  lemma ProductBounds(a: real, b: real, a0: real, a1: real, b0: real, b1: real)
    requires 0.0 <= a0 <= a < a1 && 0.0 < b0 <= b < b1
    ensures a0 * b0 <= a * b < a1 * b1
  {
    assert a0 * b0 <= a0 * b <= a * b;
    assert a * b < a1 * b <= a1 * b1;
  }

  /** How far one candle moves: seeded candles by 0.00025 up to 0.00225,
      live candles by 0.00015 up to 0.002. */
  lemma MoveSize(d: CandleDraws)
    requires ValidDraws(d)
    ensures 0.00025 <= Abs(Move(SeedWalk, d)) < 0.00225
    ensures 0.00015 <= Abs(Move(LiveWalk, d)) < 0.002
  {
    ProductBounds(0.0005 + d.volatility * 0.0010, 0.5 + d.size * 1.0, 0.0005, 0.0015, 0.5, 1.5);
    ProductBounds(0.0005 + d.volatility * 0.0015, 0.3 + d.size * 0.7, 0.0005, 0.002, 0.3, 1.0);
  }

  function Abs(x: real): real { if x < 0.0 then -x else x }

  /** The time of the k-th seeded candle: 250 s down to 5 s before `now`. */
  function SeedTime(now: int, k: int): int
  {
    now - (InitialCount as int - k) * InitialSpacingMs
  }

  /** The seeding loop of the chart: fifty candles of the seed walk, the
      first opening at 1.0850 and each next one at the previous close. */
  method GenerateInitial(now: int, draws: seq<CandleDraws>) returns (cs: seq<Candle>)
    requires |draws| == InitialCount
    requires forall k :: 0 <= k < |draws| ==> ValidDraws(draws[k])
    ensures |cs| == InitialCount
    ensures cs[0].open == BasePrice && Chained(cs)
    ensures forall k :: 0 <= k < |cs| ==>
      cs[k] == NextCandle(SeedWalk, SeedTime(now, k), cs[k].open, draws[k])
    ensures forall k :: 0 <= k < |cs| ==> WellFormed(cs[k])
    ensures forall k :: 0 <= k < |cs| ==> cs[k].time == now - (50 - k) * 5000
    ensures forall k :: 0 <= k < |cs| ==> 1000.0 <= cs[k].volume < 6000.0
  {
    cs := [];
    var basePrice := BasePrice;
    var i := 0;
    while i < InitialCount
      invariant 0 <= i <= InitialCount && |cs| == i
      invariant i == 0 ==> basePrice == BasePrice
      invariant i > 0 ==> cs[0].open == BasePrice && basePrice == cs[i - 1].close
      invariant Chained(cs)
      invariant forall k :: 0 <= k < i ==>
        cs[k] == NextCandle(SeedWalk, SeedTime(now, k), cs[k].open, draws[k])
    {
      var c := NextCandle(SeedWalk, SeedTime(now, i), basePrice, draws[i]);
      cs := cs + [c];
      basePrice := c.close;
      i := i + 1;
    }
  }

  /** One live tick of the chart: a candle of the live walk opening at the
      last close and stamped `now`, appended while the oldest is dropped.
      An empty list has no last candle; the chart would fail there, so the
      result is absent. */
  function LiveStep(window: seq<Candle>, now: int, d: CandleDraws): (r: Option<seq<Candle>>)
    requires ValidDraws(d)
    ensures r.Some? <==> |window| > 0
    ensures r.Some? ==> |r.value| == |window|
    ensures r.Some? ==> r.value[..|window| - 1] == window[1..]
    ensures r.Some? ==> var c := r.value[|window| - 1];
      && c.open == window[|window| - 1].close && c.time == now && WellFormed(c)
      && 800.0 <= c.volume < 4800.0
      && c == NextCandle(LiveWalk, now, window[|window| - 1].close, d)
  {
    if |window| == 0 then None
    else
      var c := NextCandle(LiveWalk, now, window[|window| - 1].close, d);
      Some(window[1..] + [c])
  }

  /** The live step keeps a chained list chained. */
  lemma LiveStepKeepsChained(window: seq<Candle>, now: int, d: CandleDraws)
    requires ValidDraws(d) && |window| > 0 && Chained(window)
    ensures Chained(LiveStep(window, now, d).value)
  {
    var r := LiveStep(window, now, d).value;
    forall k | 0 < k < |r| ensures r[k].open == r[k - 1].close {
      if k < |r| - 1 {
        assert r[k] == window[k + 1] && r[k - 1] == window[k];
      }
    }
  }

  /** A run of live steps, one draw per step, all stamped `now`. */
  function LiveSteps(window: seq<Candle>, now: int, ds: seq<CandleDraws>): Option<seq<Candle>>
    requires forall k :: 0 <= k < |ds| ==> ValidDraws(ds[k])
    decreases |ds|
  {
    if |ds| == 0 then Some(window)
    else match LiveStep(window, now, ds[0])
      case None => None
      case Some(w) => LiveSteps(w, now, ds[1..])
  }

  /** The window is first-in first-out: after `n` steps its length is
      unchanged and the candles that were not dropped have moved `n` places
      towards the front. */
  lemma {:induction false} LiveStepsShift(window: seq<Candle>, now: int, ds: seq<CandleDraws>)
    requires forall k :: 0 <= k < |ds| ==> ValidDraws(ds[k])
    requires 0 < |window| && |ds| <= |window|
    ensures LiveSteps(window, now, ds).Some?
    ensures |LiveSteps(window, now, ds).value| == |window|
    ensures LiveSteps(window, now, ds).value[..|window| - |ds|] == window[|ds|..]
    decreases |ds|
  {
    if |ds| > 0 {
      var w := LiveStep(window, now, ds[0]).value;
      LiveStepsShift(w, now, ds[1..]);
      var r := LiveSteps(w, now, ds[1..]).value;
      assert r[..|w| - |ds[1..]|] == w[|ds| - 1..];
      assert w[|ds| - 1..] == w[..|window| - 1][|ds| - 1..] + w[|window| - 1..];
      assert r[..|window| - |ds|] == w[|ds| - 1..][..|window| - |ds|];
      assert w[..|window| - 1][|ds| - 1..] == window[|ds|..];
    }
  }

  /** The live step keeps every candle well formed. */
  lemma LiveStepKeepsWellFormed(window: seq<Candle>, now: int, d: CandleDraws)
    requires ValidDraws(d) && |window| > 0
    requires forall k :: 0 <= k < |window| ==> WellFormed(window[k])
    ensures var r := LiveStep(window, now, d).value;
      forall k :: 0 <= k < |r| ==> WellFormed(r[k])
  {
    var r := LiveStep(window, now, d).value;
    forall k | 0 <= k < |r| ensures WellFormed(r[k]) {
      if k < |r| - 1 {
        assert r[k] == window[k + 1];
      }
    }
  }
}

=== FILE: chart.dfy ===
/** The chart component's state: the candle window, the indicator series
    recomputed from it, the current price, the play/pause flag and the
    chart's own waiting-users counter. The component defines a play/pause
    handler but no element calls it, so the flag stays set in the running
    dashboard; likewise the chart's counter drifts but is never rendered.
    The paused behaviour is modelled as the code defines it. */
module Chart {
  import opened Common
  import opened Candles
  import opened Indicators
  import Crowd
  import Cooldowns

  datatype ChartState = ChartState(
    candles: seq<Candle>,
    indicators: seq<Indicator>,
    currentPrice: real,
    isPlaying: bool,
    waitingUsers: int)

  /** What holds once the chart is seeded: fifty chained, well-formed
      candles, indicators computed from exactly those candles, the current
      price at the last close, and the counter in its range. */
  predicate ChartInv(s: ChartState, sqrt: real -> real)
  {
    && |s.candles| == InitialCount
    && Chained(s.candles)
    && (forall k :: 0 <= k < |s.candles| ==> WellFormed(s.candles[k]))
    && s.indicators == Series(Closes(s.candles), sqrt)
    && s.currentPrice == s.candles[|s.candles| - 1].close
    && Crowd.MinUsers <= s.waitingUsers <= Crowd.MaxUsers
  }

  /** The state before any effect has run. */
  const Unseeded: ChartState := ChartState([], [], BasePrice, true, Crowd.InitialUsers)

  /** A mounted chart: React state starts from `Unseeded` (playing, 1247
      waiting users), then the seeding effect generates fresh candles from
      1.0850, computes their indicators and sets the price to the last
      close. */
  method Mount(now: int, draws: seq<CandleDraws>, sqrt: real -> real) returns (r: ChartState)
    requires |draws| == InitialCount
    requires forall k :: 0 <= k < |draws| ==> ValidDraws(draws[k])
    ensures r.isPlaying && r.waitingUsers == Crowd.InitialUsers
    ensures ChartInv(r, sqrt)
    ensures r.candles[0].open == BasePrice
  {
    var candles := GenerateInitial(now, draws);
    var indicators := CalculateIndicators(candles, sqrt);
    r := Unseeded.(candles := candles, indicators := indicators, currentPrice := candles[|candles| - 1].close);
  }

  /** The key the dashboard mounts the chart under: the selected pair and
      the shared trigger counter. */
  datatype ChartKey = ChartKey(pair: string, triggers: int)

  /** A render of the dashboard. With an unchanged key the chart keeps its
      state; a changed key unmounts it and mounts a fresh one, which
      discards the window and the drifted counter and restores the play
      flag. */
  method Render(s: ChartState, key: ChartKey, newKey: ChartKey, now: int,
                draws: seq<CandleDraws>, sqrt: real -> real) returns (r: ChartState)
    requires |draws| == InitialCount
    requires forall k :: 0 <= k < |draws| ==> ValidDraws(draws[k])
    ensures newKey == key ==> r == s
    ensures newKey != key ==>
      r.isPlaying && r.waitingUsers == Crowd.InitialUsers
      && ChartInv(r, sqrt) && r.candles[0].open == BasePrice
  {
    if newKey == key {
      r := s;
    } else {
      r := Mount(now, draws, sqrt);
    }
  }

  /** The key changes on every pair change and on exactly the presses that
      trigger a signal: every successful trigger re-seeds the chart. */
  lemma TriggerRemountsChart(b: Cooldowns.Board, c: Cooldowns.Category, now: int, draw: real,
                             pair: string, newPair: string)
    requires IsDraw(draw)
    ensures var b2 := Cooldowns.Trigger(b, c, now, draw);
      (ChartKey(newPair, b2.triggers) != ChartKey(pair, b.triggers)) <==>
      (newPair != pair || Cooldowns.Get(b, c).canUse)
  {
  }

  /** The chart's 1.5-second interval. Paused, no interval runs and nothing
      changes. Playing, one live candle replaces the oldest, the indicators
      are recomputed, the price follows the new close and the counter
      drifts. An empty window makes the chart fail; the result is then
      absent. */
  function Tick(s: ChartState, now: int, d: CandleDraws, userDraw: real, sqrt: real -> real): (r: Option<ChartState>)
    requires ValidDraws(d)
    ensures r.None? <==> s.isPlaying && |s.candles| == 0
    ensures !s.isPlaying ==> r == Some(s)
    ensures r.Some? && s.isPlaying ==>
      && r.value.isPlaying
      && |r.value.candles| == |s.candles|
      && r.value.candles[..|s.candles| - 1] == s.candles[1..]
      && r.value.currentPrice == r.value.candles[|s.candles| - 1].close
      && r.value.candles[|s.candles| - 1].open == s.candles[|s.candles| - 1].close
      && Crowd.MinUsers <= r.value.waitingUsers <= Crowd.MaxUsers
      && r.value.waitingUsers == Crowd.Drift(s.waitingUsers, userDraw)
      && r.value.indicators == Series(Closes(r.value.candles), sqrt)
      && r.value.candles[|s.candles| - 1]
         == NextCandle(LiveWalk, now, s.candles[|s.candles| - 1].close, d)
  {
    if !s.isPlaying then Some(s)
    else
      match LiveStep(s.candles, now, d)
      case None => None
      case Some(w) =>
        Some(ChartState(w, Series(Closes(w), sqrt), w[|w| - 1].close, true,
                        Crowd.Drift(s.waitingUsers, userDraw)))
  }

  /** Ticks keep the chart invariant, so a seeded chart never fails. */
  lemma TickPreservesInv(s: ChartState, now: int, d: CandleDraws, userDraw: real, sqrt: real -> real)
    requires ValidDraws(d) && ChartInv(s, sqrt)
    ensures Tick(s, now, d, userDraw, sqrt).Some?
    ensures ChartInv(Tick(s, now, d, userDraw, sqrt).value, sqrt)
  {
    if s.isPlaying {
      LiveStepKeepsChained(s.candles, now, d);
      LiveStepKeepsWellFormed(s.candles, now, d);
    }
  }

  /** The play/pause handler. Nothing on screen calls it. */
  function TogglePlay(s: ChartState): (r: ChartState)
    ensures r.isPlaying == !s.isPlaying
    ensures r.(isPlaying := s.isPlaying) == s
  {
    s.(isPlaying := !s.isPlaying)
  }

  /** Pausing keeps the chart invariant, a paused chart's ticks change
      nothing, and pressing twice restores the state. */
  lemma TogglePlayKeepsChart(s: ChartState, now: int, d: CandleDraws, userDraw: real, sqrt: real -> real)
    requires ValidDraws(d)
    ensures ChartInv(s, sqrt) ==> ChartInv(TogglePlay(s), sqrt)
    ensures s.isPlaying ==> Tick(TogglePlay(s), now, d, userDraw, sqrt) == Some(TogglePlay(s))
    ensures TogglePlay(TogglePlay(s)) == s
  {
  }
}

=== FILE: clock.dfy ===
/** Wall-clock arithmetic shared by the schedule clock and the signal panel.
    Instants are epoch milliseconds (`Date.getTime()`); the dashboard reads
    Moscow time by shifting an instant by three hours and reading the UTC
    fields of the shifted instant. */
module Clock {

  const SecondMs: int := 1000
  const MinuteMs: int := 60 * SecondMs
  const HourMs: int := 60 * MinuteMs
  const DayMs: int := 24 * HourMs

  /** Moscow is UTC+3 all year; the dashboard hard-codes the offset. */
  const MoscowOffsetMs: int := 3 * HourMs

  /** The fields `getUTCHours`, `getUTCMinutes`, `getUTCSeconds` and
      `getUTCMilliseconds` return. */
  datatype WallTime = WallTime(hour: int, minute: int, second: int, millis: int)

  /** The UTC fields of instant `t`. Dates before 1970 are handled the way
      `Date` does, by flooring, which is what Dafny's `%` and `/` do. */
  function UtcFields(t: int): (w: WallTime)
    ensures 0 <= w.hour < 24 && 0 <= w.minute < 60
    ensures 0 <= w.second < 60 && 0 <= w.millis < 1000
    ensures t % DayMs == w.hour * HourMs + w.minute * MinuteMs + w.second * SecondMs + w.millis
  {
    var ms := t % DayMs;
    var w := WallTime(ms / HourMs, (ms % HourMs) / MinuteMs, (ms % MinuteMs) / SecondMs, ms % SecondMs);
    DecomposeDay(ms);
    w
  }

  /** The Moscow wall-clock fields of instant `now`. */
  function MoscowFields(now: int): WallTime
  {
    UtcFields(now + MoscowOffsetMs)
  }

  /** Start (00:00:00.000) of the UTC day holding `t`. */
  function DayStart(t: int): (d: int)
    ensures d % DayMs == 0
    ensures d <= t < d + DayMs
  {
    t - t % DayMs
  }

  /** `t` rounded down to a whole second. */
  function SecondFloor(t: int): (s: int)
    ensures s % SecondMs == 0
    ensures s <= t < s + SecondMs
  {
    t - t % SecondMs
  }

  lemma DecomposeDay(ms: int)
    requires 0 <= ms < DayMs
    ensures 0 <= ms / HourMs < 24
    ensures 0 <= (ms % HourMs) / MinuteMs < 60
    ensures 0 <= (ms % MinuteMs) / SecondMs < 60
    ensures ms == (ms / HourMs) * HourMs + ((ms % HourMs) / MinuteMs) * MinuteMs
                  + ((ms % MinuteMs) / SecondMs) * SecondMs + ms % SecondMs
  {
    var h := ms / HourMs;
    var r := ms % HourMs;
    assert ms == h * HourMs + r;
    var m := r / MinuteMs;
    var r2 := r % MinuteMs;
    assert r == m * MinuteMs + r2;
    assert r2 == ms % MinuteMs by {
      assert ms == (h * 60 + m) * MinuteMs + r2;
    }
    var s := r2 / SecondMs;
    assert r2 == s * SecondMs + r2 % SecondMs;
    assert r2 % SecondMs == ms % SecondMs by {
      assert ms == ((h * 60 + m) * 60 + s) * SecondMs + r2 % SecondMs;
    }
  }

  /** A whole-second count split into hours, minutes and seconds with integer
      division, as both `formatTime` helpers of the dashboard do. */
  datatype Hms = Hms(hours: nat, minutes: nat, seconds: nat)

  function Split(total: nat): (h: Hms)
    ensures h.hours == total / 3600
    ensures h.minutes < 60 && h.seconds < 60
    ensures h.hours * 3600 + h.minutes * 60 + h.seconds == total
  {
    SplitParts(total);
    Hms(total / 3600, (total % 3600) / 60, total % 60)
  }

  lemma SplitParts(total: nat)
    ensures total % 3600 == ((total % 3600) / 60) * 60 + total % 60
    ensures (total % 3600) / 60 < 60
  {
    var r := total % 3600;
    var q := total / 3600;
    assert total == q * 3600 + r && 0 <= r < 3600;
    var m := r / 60;
    var sec := r % 60;
    assert r == m * 60 + sec && 0 <= sec < 60;
    assert total == (q * 60 + m) * 60 + sec;
    assert total % 60 == sec;
  }

  /** The split is the only one with minutes and seconds below 60. */
  lemma SplitUnique(total: nat, h: Hms)
    requires h.minutes < 60 && h.seconds < 60
    requires h.hours * 3600 + h.minutes * 60 + h.seconds == total
    ensures Split(total) == h
  {
    var s := Split(total);
    assert total == h.hours * 3600 + (h.minutes * 60 + h.seconds);
    assert h.minutes * 60 + h.seconds < 3600;
    assert s.hours == h.hours;
    assert s.minutes * 60 + s.seconds == h.minutes * 60 + h.seconds;
  }
}

=== FILE: common.dfy ===
/** Small shared vocabulary: optional values, clamping, sums over reals and
    the "pick an element with one uniform draw" idiom the dashboard uses
    everywhere (`list[Math.floor(Math.random() * list.length)]`). */
module Common {

  /** A value that may be absent (`null` in the dashboard's state). */
  datatype Option<+T> = None | Some(value: T)

  function Min(a: int, b: int): int { if a <= b then a else b }

  function Max(a: int, b: int): int { if a >= b then a else b }

  function MinReal(a: real, b: real): real { if a <= b then a else b }

  function MaxReal(a: real, b: real): real { if a >= b then a else b }

  /** A uniform draw as `Math.random` produces it: a real in [0, 1). */
  predicate IsDraw(r: real) { 0.0 <= r < 1.0 }

  /** `Math.floor(r * n)`: the index a draw selects in a list of length `n`. */
  function RandomIndex(r: real, n: nat): (k: nat)
    requires IsDraw(r) && n > 0
    ensures k < n
    ensures k as real <= r * n as real < k as real + 1.0
  {
    ProductNonNegative(r, n as real);
    ProductNonNegative(1.0 - r, n as real);
    assert n as real - r * n as real == (1.0 - r) * n as real;
    (r * n as real).Floor
  }

  lemma ProductNonNegative(a: real, b: real)
    requires a >= 0.0 && b >= 0.0
    ensures a * b >= 0.0
  {
  }

  /** Left-to-right sum, as `reduce((a, b) => a + b)` computes it. */
  function Sum(s: seq<real>): real
    decreases |s|
  {
    if |s| == 0 then 0.0 else Sum(s[..|s| - 1]) + s[|s| - 1]
  }

  /** Every element of `s` lies in [lo, hi]. */
  predicate AllWithin(s: seq<real>, lo: real, hi: real)
  {
    forall k :: 0 <= k < |s| ==> lo <= s[k] <= hi
  }

  /** A sum of `n` values in [lo, hi] lies in [n * lo, n * hi]. */
  lemma {:induction false} SumBounds(s: seq<real>, lo: real, hi: real)
    requires AllWithin(s, lo, hi)
    ensures |s| as real * lo <= Sum(s) <= |s| as real * hi
    decreases |s|
  {
    if |s| > 0 {
      var p := s[..|s| - 1];
      assert forall k :: 0 <= k < |p| ==> p[k] == s[k];
      SumBounds(p, lo, hi);
      assert |s| as real * lo == |p| as real * lo + lo;
      assert |s| as real * hi == |p| as real * hi + hi;
    }
  }
}

=== FILE: cooldowns.dfy ===
/** The signal cooldown board of the dashboard's top-level component: four
    independent categories (express, hourly, five-hour, twenty-four-hour),
    each with a `canUse` flag, the instant of its last trigger and a
    whole-second countdown, plus the shared trigger counter the signal panel
    listens to and the express recommendation.

    React's timers become explicit events: a trigger (button press), a
    one-second countdown tick, the one-shot expiry timeout each trigger
    schedules, the express elapsed-time check, and the 30-second timeout
    that clears the recommendation. Any interleaving of these is allowed. */
module Cooldowns {
  import opened Common
  import Pairs
  import Clock
  import Text

  datatype Category = Express | Hourly | FiveHour | TwentyFourHour

  /** Cooldown length of each category, in seconds. */
  function DurationSeconds(c: Category): nat
  {
    match c
    case Express => 15 * 60
    case Hourly => 60 * 60
    case FiveHour => 5 * 60 * 60
    case TwentyFourHour => 24 * 60 * 60
  }

  /** The express elapsed check compares against fifteen minutes in ms. */
  const ExpressWindowMs: int := 15 * 60 * 1000

  /** The state one category keeps: `canUse…`, `last…SignalTime`, `…TimeLeft`. */
  datatype Cooldown = Cooldown(canUse: bool, lastTime: Option<int>, timeLeft: int)

  const Ready: Cooldown := Cooldown(true, None, 0)

  datatype Board = Board(
    express: Cooldown,
    hourly: Cooldown,
    fiveHour: Cooldown,
    twentyFourHour: Cooldown,
    /** `triggerExpressSignal`: bumped once per successful trigger. */
    triggers: int,
    /** `hasRecommendation` together with `recommendedPair`. */
    recommendation: Option<string>)

  const Initial: Board := Board(Ready, Ready, Ready, Ready, 0, None)

  function Get(b: Board, c: Category): Cooldown
  {
    match c
    case Express => b.express
    case Hourly => b.hourly
    case FiveHour => b.fiveHour
    case TwentyFourHour => b.twentyFourHour
  }

  /** `b` with category `c` replaced; nothing else differs. */
  function Put(b: Board, c: Category, cd: Cooldown): (r: Board)
    ensures Get(r, c) == cd
    ensures forall o :: o != c ==> Get(r, o) == Get(b, o)
    ensures r.triggers == b.triggers && r.recommendation == b.recommendation
  {
    match c
    case Express => b.(express := cd)
    case Hourly => b.(hourly := cd)
    case FiveHour => b.(fiveHour := cd)
    case TwentyFourHour => b.(twentyFourHour := cd)
  }

  /** The four `handleGet…Signal` handlers. A trigger while the category
      cannot be used is a silent no-op. A ready trigger locks the category,
      records `now`, starts the countdown at the category's duration and
      bumps the shared counter once; the express handler also picks a
      recommended pair with `pairDraw`. */
  function Trigger(b: Board, c: Category, now: int, pairDraw: real): (r: Board)
    requires IsDraw(pairDraw)
    ensures !Get(b, c).canUse ==> r == b
    ensures Get(b, c).canUse ==>
      && !Get(r, c).canUse
      && Get(r, c).lastTime == Some(now)
      && Get(r, c).timeLeft == DurationSeconds(c)
      && r.triggers == b.triggers + 1
    ensures forall o :: o != c ==> Get(r, o) == Get(b, o)
    ensures Get(b, c).canUse && c == Express ==>
      r.recommendation.Some? && r.recommendation.value in Pairs.TradingPairs
    ensures c != Express ==> r.recommendation == b.recommendation
  {
    if !Get(b, c).canUse then b
    else
      var locked := Put(b, c, Cooldown(false, Some(now), DurationSeconds(c)));
      var recommended :=
        if c == Express then Some(Pairs.RandomPair(pairDraw)) else b.recommendation;
      locked.(triggers := b.triggers + 1, recommendation := recommended)
  }

  /** One tick of a category's one-second interval. The interval only runs
      while the countdown is positive; the countdown saturates at zero and
      the tick never touches `canUse` or the last-trigger instant. */
  function Tick(b: Board, c: Category): (r: Board)
    ensures var t := Get(b, c).timeLeft;
      Get(r, c).timeLeft == (if t > 1 then t - 1 else if t > 0 then 0 else t)
    ensures Get(r, c).canUse == Get(b, c).canUse
    ensures Get(r, c).lastTime == Get(b, c).lastTime
    ensures Get(b, c).timeLeft >= 0 ==> Get(r, c).timeLeft >= 0
    ensures forall o :: o != c ==> Get(r, o) == Get(b, o)
    ensures r.triggers == b.triggers && r.recommendation == b.recommendation
  {
    var cd := Get(b, c);
    if cd.timeLeft > 0 then
      Put(b, c, cd.(timeLeft := if cd.timeLeft <= 1 then 0 else cd.timeLeft - 1))
    else b
  }

  /** The one-shot timeout each ready trigger schedules for its duration:
      it unlocks the category, forgets the trigger instant and zeroes the
      countdown, whatever the state. */
  function Expire(b: Board, c: Category): (r: Board)
    ensures Get(r, c).canUse && Get(r, c).lastTime == None && Get(r, c).timeLeft == 0
    ensures forall o :: o != c ==> Get(r, o) == Get(b, o)
    ensures r.triggers == b.triggers && r.recommendation == b.recommendation
  {
    Put(b, c, Ready)
  }

  /** The express elapsed-time check. It fires when a (truthy, so non-zero)
      last express instant lies at least fifteen minutes before `now`; it
      unlocks express and forgets the instant but leaves the countdown. */
  function ExpressElapsedCheck(b: Board, now: int): (r: Board)
    ensures var fires := b.express.lastTime.Some? && b.express.lastTime.value != 0
                         && now - b.express.lastTime.value >= ExpressWindowMs;
      && (fires ==> r.express == Cooldown(true, None, b.express.timeLeft))
      && (!fires ==> r == b)
    ensures forall o :: o != Express ==> Get(r, o) == Get(b, o)
    ensures r.triggers == b.triggers && r.recommendation == b.recommendation
  {
    match b.express.lastTime
    case Some(t) =>
      if t != 0 && now - t >= ExpressWindowMs then
        b.(express := b.express.(canUse := true, lastTime := None))
      else b
    case None => b
  }

  /** The 30-second timeout that hides the express recommendation. */
  function ClearRecommendation(b: Board): (r: Board)
    ensures r.recommendation == None
    ensures forall c :: Get(r, c) == Get(b, c)
    ensures r.triggers == b.triggers
  {
    b.(recommendation := None)
  }

  datatype Event =
    | Press(category: Category, now: int, pairDraw: real)
    | Second(category: Category)
    | Timeout(category: Category)
    | ElapsedCheck(now: int)
    | RecommendationTimeout

  predicate ValidEvent(e: Event)
  {
    e.Press? ==> IsDraw(e.pairDraw)
  }

  function Apply(b: Board, e: Event): Board
    requires ValidEvent(e)
  {
    match e
    case Press(c, now, draw) => Trigger(b, c, now, draw)
    case Second(c) => Tick(b, c)
    case Timeout(c) => Expire(b, c)
    case ElapsedCheck(now) => ExpressElapsedCheck(b, now)
    case RecommendationTimeout => ClearRecommendation(b)
  }

  function Run(b: Board, es: seq<Event>): Board
    requires forall k :: 0 <= k < |es| ==> ValidEvent(es[k])
    decreases |es|
  {
    if |es| == 0 then b else Run(Apply(b, es[0]), es[1..])
  }

  /** What every reachable board satisfies. The countdown stays within
      [0, duration]; a category is usable exactly when no trigger instant is
      recorded; and apart from express (whose elapsed check unlocks it
      without touching the countdown) a usable category shows no countdown. */
  predicate CategoryInv(c: Category, cd: Cooldown)
  {
    && 0 <= cd.timeLeft <= DurationSeconds(c)
    && (cd.canUse <==> cd.lastTime.None?)
    && (c != Express && cd.canUse ==> cd.timeLeft == 0)
  }

  predicate Inv(b: Board)
  {
    && (forall c :: CategoryInv(c, Get(b, c)))
    && b.triggers >= 0
    && (b.recommendation.Some? ==> b.recommendation.value in Pairs.TradingPairs)
  }

  lemma InitialInv()
    ensures Inv(Initial)
  {
  }

  lemma ApplyPreservesInv(b: Board, e: Event)
    requires Inv(b) && ValidEvent(e)
    ensures Inv(Apply(b, e))
  {
    var r := Apply(b, e);
    forall c ensures CategoryInv(c, Get(r, c)) {
      assert CategoryInv(c, Get(b, c));
    }
  }

  /** Every board reachable from the initial one by any event sequence keeps
      the invariant; the trigger counter never decreases. */
  lemma {:induction false} RunPreservesInv(b: Board, es: seq<Event>)
    requires Inv(b)
    requires forall k :: 0 <= k < |es| ==> ValidEvent(es[k])
    ensures Inv(Run(b, es))
    ensures Run(b, es).triggers >= b.triggers
    decreases |es|
  {
    if |es| > 0 {
      ApplyPreservesInv(b, es[0]);
      assert Apply(b, es[0]).triggers >= b.triggers;
      RunPreservesInv(Apply(b, es[0]), es[1..]);
    }
  }

  /** `n` ticks of one category. */
  function Ticks(b: Board, c: Category, n: nat): Board
    decreases n
  {
    if n == 0 then b else Ticks(Tick(b, c), c, n - 1)
  }

  /** `n` ticks count a non-negative countdown down to `max(0, t - n)` and
      leave the lock, the trigger instant and every other category alone:
      reaching zero does not unlock the category. */
  lemma {:induction false} TicksCountDown(b: Board, c: Category, n: nat)
    requires Get(b, c).timeLeft >= 0
    ensures var t := Get(b, c).timeLeft;
      Get(Ticks(b, c, n), c) == Get(b, c).(timeLeft := Max(0, t - n))
    ensures forall o :: o != c ==> Get(Ticks(b, c, n), o) == Get(b, o)
    decreases n
  {
    if n > 0 {
      TicksCountDown(Tick(b, c), c, n - 1);
    }
  }

  /** The hourly scenario: a trigger, then 3600 one-second ticks, leaves the
      category locked at zero with its trigger instant still recorded; only
      the expiry timeout makes it usable again. */
  lemma HourlyScenario(b: Board, now: int, draw: real)
    requires Inv(b) && Get(b, Hourly).canUse && IsDraw(draw)
    ensures var locked := Ticks(Trigger(b, Hourly, now, draw), Hourly, 3600);
      && Get(locked, Hourly) == Cooldown(false, Some(now), 0)
      && Get(Expire(locked, Hourly), Hourly) == Ready
  {
    TicksCountDown(Trigger(b, Hourly, now, draw), Hourly, 3600);
  }

  /** `formatTime`: `hh:mm:ss`, each field zero-padded to at least two
      characters (only the hours field can grow past two). Reading the text
      back gives the number of seconds it was made from. */
  function FormatTime(seconds: nat): (s: string)
    ensures ClockShape(s)
    ensures |s| - 6 == Max(2, |Text.Decimal(seconds / 3600)|)
    ensures Text.Value(s[|s| - 5..|s| - 3]) < 60 && Text.Value(s[|s| - 2..]) < 60
    ensures ParseTime(s) == Some(seconds)
  {
    Render(Clock.Split(seconds))
  }

  /** The clock text is determined by the contract above: any `h…h:mm:ss`
      text with as many hour digits as the padded hour count, minute and
      second fields below 60, and the right value is the formatted one. */
  lemma FormatTimeUnique(seconds: nat, s: string)
    requires ClockShape(s)
    requires |s| - 6 == Max(2, |Text.Decimal(seconds / 3600)|)
    requires Text.Value(s[|s| - 5..|s| - 3]) < 60 && Text.Value(s[|s| - 2..]) < 60
    requires ParseTime(s) == Some(seconds)
    ensures s == FormatTime(seconds)
  {
    var f := FormatTime(seconds);
    var h := FieldsOf(s);
    Clock.SplitUnique(seconds, h);
    Clock.SplitUnique(seconds, FieldsOf(f));
    SameFieldsSameClock(s, f);
  }

  /** The hour, minute and second counts a clock text shows. */
  function FieldsOf(s: string): (h: Clock.Hms)
    requires ClockShape(s)
    ensures h.hours * 3600 + h.minutes * 60 + h.seconds == ClockValue(s[..|s| - 6], s[|s| - 5..|s| - 3], s[|s| - 2..])
  {
    Text.ValueNonNegative(s[..|s| - 6]);
    Text.ValueNonNegative(s[|s| - 5..|s| - 3]);
    Text.ValueNonNegative(s[|s| - 2..]);
    Clock.Hms(Text.Value(s[..|s| - 6]), Text.Value(s[|s| - 5..|s| - 3]), Text.Value(s[|s| - 2..]))
  }

  /** Two clock texts of the same length showing the same counts are equal. */
  lemma SameFieldsSameClock(s: string, f: string)
    requires ClockShape(s) && ClockShape(f) && |s| == |f| && FieldsOf(s) == FieldsOf(f)
    ensures s == f
  {
    Text.FixedWidthUnique(s[..|s| - 6], f[..|f| - 6]);
    Text.FixedWidthUnique(s[|s| - 5..|s| - 3], f[|f| - 5..|f| - 3]);
    Text.FixedWidthUnique(s[|s| - 2..], f[|f| - 2..]);
    assert s == s[..|s| - 6] + ":" + s[|s| - 5..|s| - 3] + ":" + s[|s| - 2..];
    assert f == f[..|f| - 6] + ":" + f[|f| - 5..|f| - 3] + ":" + f[|f| - 2..];
  }

  /** The three fields padded and joined with colons. */
  function Render(h: Clock.Hms): (s: string)
    requires h.minutes < 60 && h.seconds < 60
    ensures ClockShape(s)
    ensures |s| - 6 == Max(2, |Text.Decimal(h.hours)|)
    ensures Text.Value(s[|s| - 5..|s| - 3]) == h.minutes && Text.Value(s[|s| - 2..]) == h.seconds
    ensures ParseTime(s) == Some(h.hours * 3600 + h.minutes * 60 + h.seconds)
  {
    var hh := Pad2(h.hours);
    var mm := Pad2(h.minutes);
    var ss := Pad2(h.seconds);
    ClockLayout(hh, mm, ss);
    ClockValueOf(hh, mm, ss, h);
    hh + ":" + mm + ":" + ss
  }

  /** One field of the clock: `n.toString().padStart(2, '0')`. */
  function Pad2(n: nat): (s: string)
    ensures |s| == Max(2, |Text.Decimal(n)|)
    ensures Text.AllDigits(s) && Text.Value(s) == n
    ensures n < 60 ==> |s| == 2
  {
    Text.PadKeepsValue(Text.Decimal(n), 2);
    Text.DecimalRoundTrip(n);
    Text.PadStart(Text.Decimal(n), 2, '0')
  }

  /** `h…h:mm:ss`: at least two hour digits, then exactly two minute and two
      second digits. */
  predicate ClockShape(s: string)
  {
    && |s| >= 8 && s[|s| - 3] == ':' && s[|s| - 6] == ':'
    && Text.AllDigits(s[..|s| - 6])
    && Text.AllDigits(s[|s| - 5..|s| - 3]) && Text.AllDigits(s[|s| - 2..])
  }

  function ClockValue(hh: string, mm: string, ss: string): int
  {
    Text.Value(hh) * 3600 + Text.Value(mm) * 60 + Text.Value(ss)
  }

  lemma ClockValueOf(hh: string, mm: string, ss: string, h: Clock.Hms)
    requires Text.Value(hh) == h.hours && Text.Value(mm) == h.minutes && Text.Value(ss) == h.seconds
    ensures ClockValue(hh, mm, ss) == h.hours * 3600 + h.minutes * 60 + h.seconds
  {
  }

  /** Reads an `h…h:mm:ss` clock back into seconds. */
  function ParseTime(s: string): Option<int>
  {
    if ClockShape(s) then Some(ClockValue(s[..|s| - 6], s[|s| - 5..|s| - 3], s[|s| - 2..]))
    else None
  }

  /** Where the three fields sit in `hh:mm:ss`. */
  lemma ClockLayout(hh: string, mm: string, ss: string)
    requires |hh| >= 2 && |mm| == 2 && |ss| == 2
    requires Text.AllDigits(hh) && Text.AllDigits(mm) && Text.AllDigits(ss)
    ensures ClockShape(hh + ":" + mm + ":" + ss)
    ensures ParseTime(hh + ":" + mm + ":" + ss) == Some(ClockValue(hh, mm, ss))
  {
    var s := hh + ":" + mm + ":" + ss;
    assert s[..|s| - 6] == hh;
    assert s[|s| - 5..|s| - 3] == mm;
    assert s[|s| - 2..] == ss;
  }
}

=== FILE: crowd.dfy ===
/** The "waiting users" drift. The chart and the schedule clock each keep
    their own counter and move it on every periodic tick by a random step,
    clamped to [100, 5000]. Only the clock's counter is rendered. */
module Crowd {
  import opened Common

  const MinUsers: int := 100
  const MaxUsers: int := 5000
  const InitialUsers: int := 1247

  /** `Math.floor((Math.random() - 0.5) * 50)`. */
  function Step(r: real): int
  {
    ((r - 0.5) * 50.0).Floor
  }

  /** `Math.max(100, Math.min(5000, prev + change))`. */
  function Drift(prev: int, r: real): (n: int)
    ensures MinUsers <= n <= MaxUsers
    ensures MinUsers <= prev + Step(r) <= MaxUsers ==> n == prev + Step(r)
    ensures prev + Step(r) > MaxUsers ==> n == MaxUsers
    ensures prev + Step(r) < MinUsers ==> n == MinUsers
  {
    Max(MinUsers, Min(MaxUsers, prev + Step(r)))
  }

  /** A uniform draw moves the counter by an integer step in [-25, 24]. */
  lemma StepRange(r: real)
    requires IsDraw(r)
    ensures -25 <= Step(r) <= 24
  {
    var x := (r - 0.5) * 50.0;
    assert -25.0 <= x < 25.0;
  }

  /** From inside the range, one drift moves the counter by at most 25. */
  lemma DriftIsSmall(prev: int, r: real)
    requires IsDraw(r) && MinUsers <= prev <= MaxUsers
    ensures -25 <= Drift(prev, r) - prev <= 24
  {
    StepRange(r);
  }
}

=== FILE: indicators.dfy ===
/** The chart's technical indicators. For each candle the chart recomputes,
    from the closes up to and including that candle, two simple moving
    averages, two exponential ones, the relative strength index, MACD with
    its signal line, and Bollinger bands. Exact reals stand in for the
    dashboard's floating point; `Math.sqrt` is a parameter. */
module Indicators {
  import opened Common
  import opened Candles

  datatype Bands = Bands(upper: real, middle: real, lower: real)

  datatype Indicator = Indicator(
    sma20: real, sma50: real, ema12: real, ema26: real,
    rsi: real, macd: real, signal: real, bollinger: Bands)

  const Ema12Alpha: real := 2.0 / 13.0
  const Ema26Alpha: real := 2.0 / 27.0
  const SignalAlpha: real := 2.0 / 10.0

  /** `x || fallback` on a number: zero is falsy and gives the fallback. */
  function OrElse(x: real, fallback: real): real
  {
    if x != 0.0 then x else fallback
  }

  /** One smoothing step: `x * alpha + prev * (1 - alpha)`. */
  function Smooth(alpha: real, x: real, prev: real): real
  {
    x * alpha + prev * (1.0 - alpha)
  }

  /** `closes.slice(-n)`. */
  function Tail(s: seq<real>, n: nat): seq<real>
    requires n <= |s|
  {
    s[|s| - n..]
  }

  function Mean(s: seq<real>): real
    requires |s| > 0
  {
    Sum(s) / |s| as real
  }

  /** The `n`-period average at the last close, or that close itself while
      fewer than `n` closes exist. */
  function MovingAverage(closes: seq<real>, n: nat): real
    requires |closes| > 0 && n > 0
  {
    if |closes| >= n then Mean(Tail(closes, n)) else closes[|closes| - 1]
  }

  function Gain(change: real): real { if change > 0.0 then change else 0.0 }

  function Loss(change: real): real { if change < 0.0 then -change else 0.0 }

  /** Sum of the rises between consecutive closes of `w`. */
  function GainSum(w: seq<real>): (g: real)
    ensures g >= 0.0
    decreases |w|
  {
    if |w| < 2 then 0.0 else GainSum(w[..|w| - 1]) + Gain(w[|w| - 1] - w[|w| - 2])
  }

  /** Sum of the falls between consecutive closes of `w`. */
  function LossSum(w: seq<real>): (l: real)
    ensures l >= 0.0
    decreases |w|
  {
    if |w| < 2 then 0.0 else LossSum(w[..|w| - 1]) + Loss(w[|w| - 1] - w[|w| - 2])
  }

  /** The 14-period relative strength index with plain averages of the last
      fourteen changes; 50 until fifteen closes exist. */
  function Rsi(closes: seq<real>): (r: real)
    requires |closes| > 0
    ensures 0.0 <= r <= 100.0
    ensures |closes| < 15 ==> r == 50.0
    ensures |closes| >= 15 ==> (r == 100.0 <==> LossSum(Tail(closes, 15)) == 0.0)
    ensures |closes| >= 15 && LossSum(Tail(closes, 15)) > 0.0 ==>
      var g := GainSum(Tail(closes, 15));
      var l := LossSum(Tail(closes, 15));
      r == 100.0 * g / (g + l)
  {
    if |closes| < 15 then 50.0
    else
      var w := Tail(closes, 15);
      var avgGain := GainSum(w) / 14.0;
      var avgLoss := LossSum(w) / 14.0;
      if avgLoss == 0.0 then 100.0
      else
        RsiRatio(GainSum(w), LossSum(w));
        100.0 - (100.0 / (1.0 + (avgGain / avgLoss)))
  }

  lemma RsiRatio(g: real, l: real)
    requires g >= 0.0 && l > 0.0
    ensures var x := 100.0 - (100.0 / (1.0 + ((g / 14.0) / (l / 14.0))));
      && x == 100.0 * g / (g + l)
      && 0.0 <= x < 100.0
  {
    var q := (g / 14.0) / (l / 14.0);
    var s := g + l;
    assert q == g / l;
    assert q * l == g;
    var d := 1.0 + q;
    assert d * l == s;
    var e := 100.0 / d;
    assert e * d == 100.0;
    assert e * s == 100.0 * l by {
      assert e * s == e * (d * l) == (e * d) * l;
    }
    assert e == 100.0 * l / s;
    var t := 100.0 * g / s;
    assert t * s == 100.0 * g;
    assert (100.0 - e) * s == 100.0 * g;
    ZeroProduct((100.0 - e) - t, s);
    assert 100.0 * g / s < 100.0 by {
      assert 100.0 * g < 100.0 * s;
    }
  }

  lemma ZeroProduct(x: real, y: real)
    requires x * y == 0.0 && y != 0.0
    ensures x == 0.0
  {
  }

  /** Sum of squared deviations of `w` from `mean`, folded left from 0. */
  function SquaredDeviations(w: seq<real>, mean: real): (s: real)
    ensures s >= 0.0
    decreases |w|
  {
    if |w| == 0 then 0.0
    else
      var dev := w[|w| - 1] - mean;
      SquareNonNegative(dev);
      SquaredDeviations(w[..|w| - 1], mean) + dev * dev
  }

  lemma SquareNonNegative(x: real)
    ensures x * x >= 0.0
  {
    if x < 0.0 {
      assert x * x == (-x) * (-x);
    }
  }

  /** Bands two standard deviations (population, over twenty closes) around
      the 20-period average; collapsed onto the last close before that. */
  function Bollinger(closes: seq<real>, sma20: real, sqrt: real -> real): Bands
    requires |closes| > 0
  {
    var x := closes[|closes| - 1];
    if |closes| >= 20 then
      var stdDev := sqrt(SquaredDeviations(Tail(closes, 20), sma20) / 20.0);
      Bands(sma20 + stdDev * 2.0, sma20, sma20 - stdDev * 2.0)
    else Bands(x, x, x)
  }

  /** The snapshot for the last of `closes`, given the snapshot for the close
      before it (absent for the first). A missing or zero previous average
      falls back as the chart's `||` does. */
  function Snapshot(closes: seq<real>, prev: Option<Indicator>, sqrt: real -> real): Indicator
    requires |closes| > 0
  {
    var i := |closes| - 1;
    var x := closes[i];
    var prevEma12 := if prev.Some? then prev.value.ema12 else 0.0;
    var prevEma26 := if prev.Some? then prev.value.ema26 else 0.0;
    var prevSignal := if prev.Some? then prev.value.signal else 0.0;
    var sma20 := MovingAverage(closes, 20);
    var ema12 := if i == 0 then closes[0] else Smooth(Ema12Alpha, x, OrElse(prevEma12, closes[0]));
    var ema26 := if i == 0 then closes[0] else Smooth(Ema26Alpha, x, OrElse(prevEma26, closes[0]));
    var macd := ema12 - ema26;
    var signal := if i == 0 then macd else Smooth(SignalAlpha, macd, OrElse(prevSignal, macd));
    Indicator(sma20, MovingAverage(closes, 50), ema12, ema26, Rsi(closes), macd, signal,
              Bollinger(closes, sma20, sqrt))
  }

  /** The indicator series of a close list: one snapshot per close, each
      built on the one before. */
  function Series(closes: seq<real>, sqrt: real -> real): (r: seq<Indicator>)
    ensures |r| == |closes|
    decreases |closes|
  {
    if |closes| == 0 then []
    else
      var p := Series(closes[..|closes| - 1], sqrt);
      p + [Snapshot(closes, if |p| == 0 then None else Some(p[|p| - 1]), sqrt)]
  }

  /** `calculateIndicators`: the loop over the candles that builds the
      series snapshot by snapshot. */
  method CalculateIndicators(candles: seq<Candle>, sqrt: real -> real) returns (r: seq<Indicator>)
    ensures |r| == |candles|
    ensures r == Series(Closes(candles), sqrt)
  {
    var closes := Closes(candles);
    r := [];
    var i := 0;
    while i < |candles|
      invariant 0 <= i <= |candles|
      invariant r == Series(closes[..i], sqrt)
    {
      assert closes[..i + 1][..i] == closes[..i];
      r := r + [Snapshot(closes[..i + 1], if i == 0 then None else Some(r[i - 1]), sqrt)];
      i := i + 1;
    }
    assert closes[..|candles|] == closes;
  }

  /** No look-ahead: the series of a prefix of the closes is the prefix of
      the series, so later candles never change earlier snapshots. */
  lemma {:induction false} SeriesPrefix(closes: seq<real>, k: nat, sqrt: real -> real)
    requires k <= |closes|
    ensures Series(closes[..k], sqrt) == Series(closes, sqrt)[..k]
    decreases |closes|
  {
    if k < |closes| {
      var c := closes[..|closes| - 1];
      SeriesPrefix(c, k, sqrt);
      assert c[..k] == closes[..k];
    } else {
      assert closes[..k] == closes;
    }
  }

  /** Snapshot `i` of the series is built from the closes up to `i` and the
      snapshot before it. */
  lemma SeriesAt(closes: seq<real>, i: nat, sqrt: real -> real)
    requires i < |closes|
    ensures Series(closes, sqrt)[i]
         == Snapshot(closes[..i + 1], if i == 0 then None else Some(Series(closes, sqrt)[i - 1]), sqrt)
  {
    var c := closes[..i + 1];
    var all := Series(closes, sqrt);
    SeriesPrefix(closes, i + 1, sqrt);
    SeriesPrefix(closes, i, sqrt);
    assert c[..|c| - 1] == closes[..i];
    var p := Series(closes[..i], sqrt);
    assert p == all[..i];
    assert Series(c, sqrt) == p + [Snapshot(c, if |p| == 0 then None else Some(p[|p| - 1]), sqrt)];
    assert all[i] == Series(c, sqrt)[i];
  }

  /** The moving averages, read off the series: the means of the last 20
      and 50 closes once that many exist, the close itself before that. */
  lemma SeriesAverages(closes: seq<real>, i: nat, sqrt: real -> real)
    requires i < |closes|
    ensures var ind := Series(closes, sqrt)[i];
      && (i >= 19 ==> ind.sma20 == Mean(closes[i - 19..i + 1]))
      && (i < 19 ==> ind.sma20 == closes[i])
      && (i >= 49 ==> ind.sma50 == Mean(closes[i - 49..i + 1]))
      && (i < 49 ==> ind.sma50 == closes[i])
  {
    SeriesAt(closes, i, sqrt);
    var c := closes[..i + 1];
    assert c[i] == closes[i];
    if i >= 19 {
      assert Tail(c, 20) == closes[i - 19..i + 1];
    }
    if i >= 49 {
      assert Tail(c, 50) == closes[i - 49..i + 1];
    }
  }

  /** The exponential rules, read off the series: both averages start at
      the first close and smooth with 2/13 and 2/27 (a zero previous value
      falling back to the first close), MACD is their difference, and its
      signal line smooths with 0.2 (a zero previous value falling back to
      the current MACD). */
  lemma SeriesSmoothing(closes: seq<real>, i: nat, sqrt: real -> real)
    requires i < |closes|
    ensures var ind := Series(closes, sqrt)[i];
      && ind.macd == ind.ema12 - ind.ema26
      && (i == 0 ==> ind.ema12 == closes[0] && ind.ema26 == closes[0]
                     && ind.macd == 0.0 && ind.signal == 0.0)
      && (i > 0 ==>
            var prev := Series(closes, sqrt)[i - 1];
            && ind.ema12 == Smooth(Ema12Alpha, closes[i], OrElse(prev.ema12, closes[0]))
            && ind.ema26 == Smooth(Ema26Alpha, closes[i], OrElse(prev.ema26, closes[0]))
            && ind.signal == Smooth(SignalAlpha, ind.macd, OrElse(prev.signal, ind.macd)))
  {
    SeriesAt(closes, i, sqrt);
    var c := closes[..i + 1];
    assert c[i] == closes[i] && c[0] == closes[0];
  }

  /** The mean of values in [lo, hi] lies in [lo, hi]. */
  lemma MeanBounds(s: seq<real>, lo: real, hi: real)
    requires |s| > 0 && AllWithin(s, lo, hi)
    ensures lo <= Mean(s) <= hi
  {
    SumBounds(s, lo, hi);
    var n := |s| as real;
    assert Sum(s) / n >= (n * lo) / n;
    assert Sum(s) / n <= (n * hi) / n;
  }

  lemma TailWithin(s: seq<real>, n: nat, lo: real, hi: real)
    requires n <= |s| && AllWithin(s, lo, hi)
    ensures AllWithin(Tail(s, n), lo, hi)
  {
    var t := Tail(s, n);
    assert forall k :: 0 <= k < |t| ==> t[k] == s[|s| - n + k];
  }

  /** Both simple moving averages stay within the range of the closes. */
  lemma AveragesWithinRange(closes: seq<real>, i: nat, lo: real, hi: real, sqrt: real -> real)
    requires i < |closes| && AllWithin(closes, lo, hi)
    ensures var ind := Series(closes, sqrt)[i];
      lo <= ind.sma20 <= hi && lo <= ind.sma50 <= hi
  {
    SeriesAt(closes, i, sqrt);
    var c := closes[..i + 1];
    assert AllWithin(c, lo, hi) by {
      assert forall k :: 0 <= k < |c| ==> c[k] == closes[k];
    }
    if |c| >= 20 {
      TailWithin(c, 20, lo, hi);
      MeanBounds(Tail(c, 20), lo, hi);
    }
    if |c| >= 50 {
      TailWithin(c, 50, lo, hi);
      MeanBounds(Tail(c, 50), lo, hi);
    }
  }

  /** A smoothing step of two values in [lo, hi] stays in [lo, hi]. */
  lemma SmoothWithin(alpha: real, x: real, prev: real, lo: real, hi: real)
    requires 0.0 <= alpha <= 1.0 && lo <= x <= hi && lo <= prev <= hi
    ensures lo <= Smooth(alpha, x, prev) <= hi
  {
    assert Smooth(alpha, x, prev) - lo == (x - lo) * alpha + (prev - lo) * (1.0 - alpha);
    assert hi - Smooth(alpha, x, prev) == (hi - x) * alpha + (hi - prev) * (1.0 - alpha);
    ProductNonNegative(x - lo, alpha);
    ProductNonNegative(prev - lo, 1.0 - alpha);
    ProductNonNegative(hi - x, alpha);
    ProductNonNegative(hi - prev, 1.0 - alpha);
  }

  /** With all closes in [lo, hi] both exponential averages stay in
      [lo, hi]; the zero fallback substitutes the first close, which is in
      range too. */
  lemma {:induction false} EmasWithinRange(closes: seq<real>, i: nat, lo: real, hi: real, sqrt: real -> real)
    requires i < |closes| && AllWithin(closes, lo, hi)
    ensures var ind := Series(closes, sqrt)[i];
      lo <= ind.ema12 <= hi && lo <= ind.ema26 <= hi
    decreases i
  {
    SeriesAt(closes, i, sqrt);
    if i > 0 {
      EmasWithinRange(closes, i - 1, lo, hi, sqrt);
      var prev := Series(closes, sqrt)[i - 1];
      assert closes[..i + 1][i] == closes[i] && closes[..i + 1][0] == closes[0];
      assert lo <= closes[0] <= hi;
      SmoothWithin(Ema12Alpha, closes[i], OrElse(prev.ema12, closes[0]), lo, hi);
      SmoothWithin(Ema26Alpha, closes[i], OrElse(prev.ema26, closes[0]), lo, hi);
    }
  }

  /** With positive closes the exponential averages are never zero, so the
      `||` fallback to the first close never fires: each step smooths the
      previous average itself. */
  lemma EmaFallbackNeverFires(closes: seq<real>, i: nat, lo: real, hi: real, sqrt: real -> real)
    requires 0 < i < |closes| && AllWithin(closes, lo, hi) && lo > 0.0
    ensures var prev := Series(closes, sqrt)[i - 1];
      && OrElse(prev.ema12, closes[0]) == prev.ema12
      && OrElse(prev.ema26, closes[0]) == prev.ema26
    ensures var ind := Series(closes, sqrt)[i];
      var prev := Series(closes, sqrt)[i - 1];
      && ind.ema12 == Smooth(Ema12Alpha, closes[i], prev.ema12)
      && ind.ema26 == Smooth(Ema26Alpha, closes[i], prev.ema26)
  {
    EmasWithinRange(closes, i - 1, lo, hi, sqrt);
    SeriesSmoothing(closes, i, sqrt);
  }

  /** The RSI of every snapshot is a percentage; it is 50 for the first
      fourteen candles, and afterwards 100 exactly when none of the last
      fourteen changes was a fall. */
  lemma RsiOfSeries(closes: seq<real>, i: nat, sqrt: real -> real)
    requires i < |closes|
    ensures var r := Series(closes, sqrt)[i].rsi;
      && 0.0 <= r <= 100.0
      && (i < 14 ==> r == 50.0)
      && (i >= 14 ==> (r == 100.0 <==> LossSum(closes[i - 14..i + 1]) == 0.0))
  {
    SeriesAt(closes, i, sqrt);
    if i >= 14 {
      assert Tail(closes[..i + 1], 15) == closes[i - 14..i + 1];
    }
  }

  /** Bollinger bands sit on the close for the first nineteen candles; from
      the twentieth they are centred on the 20-period average,
      symmetric, and ordered when the square root is non-negative. */
  lemma BandsOfSeries(closes: seq<real>, i: nat, sqrt: real -> real)
    requires i < |closes|
    ensures var ind := Series(closes, sqrt)[i];
      var b := ind.bollinger;
      && (i < 19 ==> b == Bands(closes[i], closes[i], closes[i]))
      && (i >= 19 ==> b.middle == ind.sma20 && b.upper - b.middle == b.middle - b.lower)
      && ((forall v :: v >= 0.0 ==> sqrt(v) >= 0.0) ==> b.lower <= b.middle <= b.upper)
  {
    SeriesAt(closes, i, sqrt);
    assert closes[..i + 1][i] == closes[i];
  }

  /** A constant sequence sums to its length times the constant. */
  lemma SumConstant(s: seq<real>, x: real)
    requires AllWithin(s, x, x)
    ensures Sum(s) == |s| as real * x
  {
    SumBounds(s, x, x);
  }

  lemma {:induction false} FlatHasNoMoves(s: seq<real>, x: real)
    requires AllWithin(s, x, x)
    ensures GainSum(s) == 0.0 && LossSum(s) == 0.0 && SquaredDeviations(s, x) == 0.0
    decreases |s|
  {
    if |s| > 0 {
      var p := s[..|s| - 1];
      assert AllWithin(p, x, x) by {
        assert forall k :: 0 <= k < |p| ==> p[k] == s[k];
      }
      FlatHasNoMoves(p, x);
    }
  }

  /** The window statistics of a flat run of closes. */
  lemma FlatWindow(c: seq<real>, x: real, sqrt: real -> real)
    requires |c| > 0 && AllWithin(c, x, x) && sqrt(0.0) == 0.0
    ensures MovingAverage(c, 20) == x && MovingAverage(c, 50) == x
    ensures Rsi(c) == if |c| < 15 then 50.0 else 100.0
    ensures Bollinger(c, x, sqrt) == Bands(x, x, x)
  {
    if |c| >= 20 {
      TailWithin(c, 20, x, x);
      SumConstant(Tail(c, 20), x);
      FlatHasNoMoves(Tail(c, 20), x);
    }
    if |c| >= 50 {
      TailWithin(c, 50, x, x);
      SumConstant(Tail(c, 50), x);
    }
    if |c| >= 15 {
      TailWithin(c, 15, x, x);
      FlatHasNoMoves(Tail(c, 15), x);
    }
  }

  /** A flat market: every average is the price, MACD
      and its signal are zero, RSI is 50 until fourteen changes exist and
      then 100 (no falls), and the bands collapse onto the price. */
  lemma {:induction false} FlatSeries(closes: seq<real>, i: nat, x: real, sqrt: real -> real)
    requires i < |closes| && AllWithin(closes, x, x) && sqrt(0.0) == 0.0
    ensures Series(closes, sqrt)[i]
         == Indicator(x, x, x, x, if i < 14 then 50.0 else 100.0, 0.0, 0.0, Bands(x, x, x))
    decreases i
  {
    SeriesAt(closes, i, sqrt);
    var c := closes[..i + 1];
    assert AllWithin(c, x, x) by {
      assert forall k :: 0 <= k < |c| ==> c[k] == closes[k];
    }
    FlatWindow(c, x, sqrt);
    if i > 0 {
      FlatSeries(closes, i - 1, x, sqrt);
    }
  }
}

=== FILE: pairs.dfy ===
/** The fixed list of twenty currency pairs. The dashboard spells the same
    list out twice, once for the express recommendation and once for the
    generated signal; it is defined once here. */
module Pairs {
  import opened Common

  const TradingPairs: seq<string> := [
    "EUR/USD", "GBP/USD", "USD/JPY", "AUD/USD", "USD/CAD", "USD/CHF",
    "NZD/USD", "EUR/GBP", "EUR/JPY", "GBP/JPY", "AUD/JPY", "CAD/JPY",
    "EUR/USD-OTC", "GBP/USD-OTC", "USD/JPY-OTC", "AUD/USD-OTC", "USD/CAD-OTC",
    "USD/CHF-OTC", "NZD/USD-OTC", "EUR/GBP-OTC"
  ]

  /** The pair one uniform draw selects. */
  function RandomPair(r: real): (p: string)
    requires IsDraw(r)
    ensures p in TradingPairs
  {
    TradingPairs[RandomIndex(r, |TradingPairs|)]
  }

  /** Every pair of the list is reachable: a draw in [k/20, (k+1)/20) picks
      the k-th pair. */
  lemma RandomPairCovers(k: nat, r: real)
    requires k < |TradingPairs|
    requires k as real / 20.0 <= r < (k + 1) as real / 20.0
    ensures IsDraw(r) && RandomPair(r) == TradingPairs[k]
  {
    assert |TradingPairs| == 20;
    assert k as real <= r * 20.0 < (k + 1) as real;
    assert (r * 20.0).Floor == k;
  }
}

=== FILE: schedule.dfy ===
/** The schedule clock: the countdown to the next scheduled signal at 11:00,
    16:00 or 21:00 Moscow time, the hundredths counter beside it, and the
    waiting-users counter. Instants are epoch milliseconds passed in by the
    caller in place of `new Date()`.

    The countdown is modelled as the dashboard computes it: the next slot is
    built on the Moscow-shifted instant, but the unshifted current instant is
    subtracted from it, so the countdown runs three hours long. */
module Schedule {
  import opened Common
  import opened Clock
  import Crowd

  /** Slot hours, in the order the search visits them. */
  const SignalHours: seq<int> := [11, 16, 21]

  /** `maxTimeToSignal`: ten hours, in seconds. */
  const MaxTimeToSignal: int := 10 * 60 * 60

  /** The search's test of slot hour `h` against the current Moscow time: a
      later hour, or this very hour on the exact minute and second. */
  predicate Qualifies(h: int, w: WallTime)
  {
    h > w.hour || (h == w.hour && w.minute == 0 && w.second == 0)
  }

  /** The `for … break` over the slot list: the index of the first slot that
      qualifies, or none. */
  function FirstSlot(slots: seq<int>, w: WallTime): (r: Option<nat>)
    ensures r.Some? ==> r.value < |slots| && Qualifies(slots[r.value], w)
    ensures r.Some? ==> forall j :: 0 <= j < r.value ==> !Qualifies(slots[j], w)
    ensures r.None? ==> forall j :: 0 <= j < |slots| ==> !Qualifies(slots[j], w)
    decreases |slots|
  {
    if |slots| == 0 then None
    else if Qualifies(slots[0], w) then Some(0)
    else
      match FirstSlot(slots[1..], w)
      case None => None
      case Some(k) => Some(k + 1)
  }

  /** A Moscow-frame instant on the hour of one of the slots. */
  predicate IsSlotInstant(t: int)
  {
    t % HourMs == 0 && (t % DayMs) / HourMs in SignalHours
  }

  /** `getNextSignalTime`: on the Moscow-shifted instant, the first slot of
      today that qualifies, or 11:00 tomorrow when none does. The result is
      an instant of the shifted frame. */
  function NextSignal(now: int): (t: int)
    ensures IsSlotInstant(t)
    ensures UtcFields(t).minute == 0 && UtcFields(t).second == 0 && UtcFields(t).millis == 0
    ensures UtcFields(t).hour in SignalHours
  {
    var m := now + MoscowOffsetMs;
    var day := DayStart(m);
    match FirstSlot(SignalHours, UtcFields(m))
    case Some(k) =>
      SlotOnDay(day, SignalHours[k]);
      day + SignalHours[k] * HourMs
    case None =>
      SlotOnDay(day + DayMs, SignalHours[0]);
      day + DayMs + SignalHours[0] * HourMs
  }

  /** `h` hours after a day start, for a slot hour `h`, is a slot instant
      whose UTC fields read `h:00:00.000`. */
  lemma SlotOnDay(day: int, h: int)
    requires day % DayMs == 0 && h in SignalHours
    ensures IsSlotInstant(day + h * HourMs)
    ensures (day + h * HourMs) % DayMs == h * HourMs
    ensures var w := UtcFields(day + h * HourMs);
      w.hour == h && w.minute == 0 && w.second == 0 && w.millis == 0
  {
    var q := day / DayMs;
    assert day == q * DayMs;
    ShiftMod(q, DayMs, h * HourMs);
    ShiftMod(q * 24 + h, HourMs, 0);
    ShiftMod(h, HourMs, 0);
  }

  /** Division by `n` undoes `q * n + x` for a remainder `x` in range. */
  lemma ShiftMod(q: int, n: int, x: int)
    requires n > 0 && 0 <= x < n
    ensures (q * n + x) % n == x && (q * n + x) / n == q
  {
    var d := (q * n + x) / n;
    var r := (q * n + x) % n;
    assert (d - q) * n == x - r;
    if d - q >= 1 {
      MulAtLeast(d - q, n);
    } else if d - q <= -1 {
      MulAtLeast(q - d, n);
    }
  }

  lemma MulAtLeast(a: int, n: int)
    requires a >= 1 && n > 0
    ensures a * n >= n
  {
    assert a * n == (a - 1) * n + n;
  }

  /** The current second of instant `m`, in terms of its UTC fields. */
  lemma SecondFloorFields(m: int)
    ensures var w := UtcFields(m);
      SecondFloor(m) == DayStart(m) + w.hour * HourMs + w.minute * MinuteMs + w.second * SecondMs
  {
    var w := UtcFields(m);
    var q := m / DayMs;
    assert m == q * DayMs + m % DayMs;
    ShiftMod(q * 86400 + w.hour * 3600 + w.minute * 60 + w.second, SecondMs, w.millis);
  }

  /** A slot instant is its day start plus its slot hour. */
  lemma SlotDecompose(t: int)
    requires IsSlotInstant(t)
    ensures t == DayStart(t) + ((t % DayMs) / HourMs) * HourMs
  {
    var hq := t / HourMs;
    var dq := t / DayMs;
    assert t == hq * HourMs;
    assert t == dq * DayMs + t % DayMs;
    assert t % DayMs == (hq - dq * 24) * HourMs;
    ShiftMod(hq - dq * 24, HourMs, 0);
  }

  /** The next signal is never before the current Moscow second. */
  lemma NextSignalNotBefore(now: int)
    ensures NextSignal(now) >= SecondFloor(now + MoscowOffsetMs)
  {
    var m := now + MoscowOffsetMs;
    var w := UtcFields(m);
    SecondFloorFields(m);
    match FirstSlot(SignalHours, w) {
      case Some(k) =>
        assert Qualifies(SignalHours[k], w);
      case None =>
    }
  }

  /** The search as a specification: the next signal instant is the earliest
      slot instant at or after the current Moscow second. A slot that starts
      within the current second still counts as "next". */
  lemma NextSignalIsEarliest(now: int, t: int)
    requires IsSlotInstant(t) && SecondFloor(now + MoscowOffsetMs) <= t
    ensures SecondFloor(now + MoscowOffsetMs) <= NextSignal(now) <= t
  {
    NextSignalNotBefore(now);
    var m := now + MoscowOffsetMs;
    var w := UtcFields(m);
    var day := DayStart(m);
    var found := FirstSlot(SignalHours, w);
    SecondFloorFields(m);
    SlotDecompose(t);
    var tday := DayStart(t);
    var ht := (t % DayMs) / HourMs;
    assert ht in SignalHours;
    DayStartsAreDaysApart(tday, day);
    if tday == day {
      assert Qualifies(ht, w);
      var j :| 0 <= j < |SignalHours| && SignalHours[j] == ht;
      assert found.Some? && found.value <= j;
      assert SignalHours[found.value] <= SignalHours[j];
    } else {
      assert tday >= day + DayMs;
      assert ht >= SignalHours[0];
    }
  }

  /** Two day starts are a whole number of days apart. */
  lemma DayStartsAreDaysApart(a: int, b: int)
    requires a % DayMs == 0 && b % DayMs == 0
    ensures a > b - DayMs ==> a >= b
    ensures a > b ==> a >= b + DayMs
  {
    var qa := a / DayMs;
    var qb := b / DayMs;
    assert a == qa * DayMs && b == qb * DayMs;
    if a > b - DayMs { assert qa > qb - 1; }
    if a > b { assert qa > qb; }
  }

  /** The countdown's result: the whole seconds left and, when the next
      signal lies in the future, the `onTimerUpdate` report and the slot
      label; otherwise nothing is updated. */
  datatype TimerUpdate = TimerUpdate(timeLeft: int, maxTime: int)
  datatype Countdown = Countdown(seconds: int, slotHour: Option<int>, update: Option<TimerUpdate>)

  /** Hours, minutes and seconds of a positive millisecond difference,
      recombined into whole seconds. */
  function WholeSeconds(difference: int): (s: int)
    requires difference > 0
    ensures s == difference / SecondMs
  {
    var hours := difference / HourMs;
    var minutes := (difference % HourMs) / MinuteMs;
    var seconds := (difference % MinuteMs) / SecondMs;
    var r := difference % HourMs;
    assert difference == hours * HourMs + r;
    assert r == minutes * MinuteMs + difference % MinuteMs by {
      assert r == minutes * MinuteMs + r % MinuteMs;
      ShiftMod(hours * 60 + minutes, MinuteMs, r % MinuteMs);
    }
    assert difference % MinuteMs == seconds * SecondMs + difference % SecondMs by {
      var r2 := difference % MinuteMs;
      assert r2 == seconds * SecondMs + r2 % SecondMs;
      ShiftMod((hours * 60 + minutes) * 60 + seconds, SecondMs, r2 % SecondMs);
    }
    ShiftMod(hours * 3600 + minutes * 60 + seconds, SecondMs, difference % SecondMs);
    hours * 3600 + minutes * 60 + seconds
  }

  /** `calculateTimeLeft`, as written: the next slot instant of the Moscow
      frame minus the unshifted current instant. */
  function CalculateTimeLeft(now: int): (c: Countdown)
    ensures var d := NextSignal(now) - now;
      && (d > 0 ==>
            c.seconds == d / SecondMs
            && c.update == Some(TimerUpdate(c.seconds, MaxTimeToSignal))
            && c.slotHour == Some(UtcFields(NextSignal(now)).hour))
      && (d <= 0 ==> c == Countdown(0, None, None))
  {
    var next := NextSignal(now);
    var difference := next - now;
    if difference > 0 then
      var total := WholeSeconds(difference);
      Countdown(total, Some(UtcFields(next).hour), Some(TimerUpdate(total, MaxTimeToSignal)))
    else Countdown(0, None, None)
  }

  /** As written, the countdown is the true wait plus three hours: it never
      drops below 10799 seconds, so the timer-end branch (`<= 1`) is dead. */
  lemma TimeLeftNeverEnds(now: int)
    ensures CalculateTimeLeft(now).seconds >= 3 * 3600 - 1
    ensures NextSignal(now) - now > 0
  {
    NextSignalNotBefore(now);
    var d := NextSignal(now) - now;
    assert d >= MoscowOffsetMs - 999;
    assert d / SecondMs >= 3 * 3600 - 1;
  }

  /** The countdown the slot labels evidently intend: the next slot instant
      taken back to real time before the current instant is subtracted. */
  function CorrectedTimeLeft(now: int): (c: Countdown)
    ensures var d := NextSignal(now) - MoscowOffsetMs - now;
      && (d > 0 ==>
            c.seconds == d / SecondMs
            && c.update == Some(TimerUpdate(c.seconds, MaxTimeToSignal)))
      && (d <= 0 ==> c == Countdown(0, None, None))
  {
    var next := NextSignal(now);
    var difference := next - MoscowOffsetMs - now;
    if difference > 0 then
      var total := WholeSeconds(difference);
      Countdown(total, Some(UtcFields(next).hour), Some(TimerUpdate(total, MaxTimeToSignal)))
    else Countdown(0, None, None)
  }

  /** One second before a slot the corrected countdown shows one second,
      so its timer-end branch fires; the as-written one shows 10801. */
  lemma CorrectedReachesEnd(t: int)
    requires IsSlotInstant(t)
    ensures var now := t - MoscowOffsetMs - SecondMs;
      && NextSignal(now) == t
      && CorrectedTimeLeft(now).seconds == 1
      && CalculateTimeLeft(now).seconds == 3 * 3600 + 1
  {
    var now := t - MoscowOffsetMs - SecondMs;
    var m := now + MoscowOffsetMs;
    assert m == t - SecondMs;
    assert SecondFloor(m) == m by {
      var q := t / HourMs;
      assert t == q * HourMs;
      ShiftMod(q * 3600 - 1, SecondMs, 0);
    }
    NextSignalIsEarliest(now, t);
    var next := NextSignal(now);
    assert next % HourMs == 0 && t % HourMs == 0;
    assert next > t - HourMs;
    assert next == t by {
      var a := next / HourMs;
      var b := t / HourMs;
      assert next == a * HourMs && t == b * HourMs;
      assert a > b - 1;
    }
  }

  /** `formatTime` of the schedule clock: hours, minutes and seconds of the
      countdown. */
  function FormatTime(seconds: nat): (h: Hms)
    ensures h.minutes < 60 && h.seconds < 60
    ensures h.hours * 3600 + h.minutes * 60 + h.seconds == seconds
  {
    Split(seconds)
  }

  /** The hundredths counter, advanced every 10 ms. */
  function MsTick(prev: nat): (n: nat)
    ensures prev < 100 ==> n < 100 && n == (if prev == 99 then 0 else prev + 1)
  {
    (prev + 1) % 100
  }

  function MsAfter(n: nat): nat
    decreases n
  {
    if n == 0 then 0 else MsTick(MsAfter(n - 1))
  }

  /** Started at 0, the counter after `n` ticks is `n mod 100`. */
  lemma {:induction false} MsAfterIsMod(n: nat)
    ensures MsAfter(n) == n % 100 && MsAfter(n) < 100
    decreases n
  {
    if n > 0 {
      MsAfterIsMod(n - 1);
    }
  }

  /** The clock's own state. */
  datatype TimerState = TimerState(
    timeLeft: int,
    millis: nat,
    waitingUsers: int,
    isWaitingSignal: bool,
    slotHour: Option<int>,
    showEntryPoint: bool)

  const InitialTimer: TimerState :=
    TimerState(0, 0, Crowd.InitialUsers, false, None, false)

  /** The clock's one-second interval: recompute the countdown (keeping the
      previous value when the next signal is not in the future), raise the
      timer-end event when it reads one second or less, and drift the
      waiting-users counter. The second component says whether the timer-end
      event fired. */
  function SecondTick(st: TimerState, now: int, userDraw: real): (r: (TimerState, bool))
    ensures Crowd.MinUsers <= r.0.waitingUsers <= Crowd.MaxUsers
    ensures r.0.waitingUsers == Crowd.Drift(st.waitingUsers, userDraw)
    ensures r.1 <==> CalculateTimeLeft(now).seconds <= 1
    ensures var c := CalculateTimeLeft(now);
      && (c.update.Some? ==> r.0.timeLeft == c.seconds && r.0.slotHour == c.slotHour)
      && (c.update.None? ==> r.0.timeLeft == st.timeLeft && r.0.slotHour == st.slotHour)
    ensures r.0.showEntryPoint == (r.1 || st.showEntryPoint)
    ensures r.0.millis == st.millis && r.0.isWaitingSignal == st.isWaitingSignal
  {
    var c := CalculateTimeLeft(now);
    var counted := if c.update.Some? then st.(timeLeft := c.seconds, slotHour := c.slotHour) else st;
    var ended := c.seconds <= 1;
    var shown := if ended then counted.(showEntryPoint := true) else counted;
    (shown.(waitingUsers := Crowd.Drift(st.waitingUsers, userDraw)), ended)
  }

  /** The timer-end event never fires: the dashboard's "entry point" and
      its timer-end notification are unreachable from this clock. */
  lemma SecondTickNeverEnds(st: TimerState, now: int, userDraw: real)
    ensures !SecondTick(st, now, userDraw).1
    ensures SecondTick(st, now, userDraw).0.timeLeft >= 3 * 3600 - 1
  {
    TimeLeftNeverEnds(now);
  }

  /** The 300 ms timeout a click on the waiting button schedules. It acts
      on the waiting flag as it was when the button was clicked
      (`captured`), not on the current one: joining adds one user, leaving
      removes one but not below 100. */
  function ToggleWait(st: TimerState, captured: bool): (r: TimerState)
    ensures r.isWaitingSignal == !captured
    ensures !captured ==> r.waitingUsers == st.waitingUsers + 1
    ensures captured ==> r.waitingUsers == Max(Crowd.MinUsers, st.waitingUsers - 1)
    ensures r.(isWaitingSignal := st.isWaitingSignal, waitingUsers := st.waitingUsers) == st
  {
    if !captured then st.(isWaitingSignal := true, waitingUsers := st.waitingUsers + 1)
    else st.(isWaitingSignal := false, waitingUsers := Max(Crowd.MinUsers, st.waitingUsers - 1))
  }

  /** Clicks far enough apart each see the previous timeout's flag: joining
      then leaving restores a counter that was at least 100. */
  lemma ToggleTwiceRestores(st: TimerState)
    requires !st.isWaitingSignal && st.waitingUsers >= Crowd.MinUsers
    ensures var joined := ToggleWait(st, st.isWaitingSignal);
      ToggleWait(joined, joined.isWaitingSignal) == st
  {
  }

  /** Two clicks within 300 ms both capture "not waiting": both timeouts
      join, so the counter grows by two and the flag ends up set. */
  lemma DoubleClickJoinsTwice(st: TimerState)
    requires !st.isWaitingSignal
    ensures var r := ToggleWait(ToggleWait(st, st.isWaitingSignal), st.isWaitingSignal);
      r.isWaitingSignal && r.waitingUsers == st.waitingUsers + 2
  {
  }
}

=== FILE: strategy.dfy ===
/** The signal panel: when a trading signal is generated and what it holds,
    the analysis progress bar, the strategy text typed out character by
    character, and the colours the panel picks for a signal. The panel also
    defines a status-line helper and a block-colour helper that nothing
    calls; they are modelled as written, but neither shows on screen. */
module Strategy {
  import opened Common
  import opened Clock
  import opened Pairs
  import Schedule
  import Cooldowns

  // ---------------------------------------------------------------------
  // Signals

  datatype Direction = Higher | Lower

  /** The direction as the panel stores and shows it. */
  function Label(d: Direction): string
  {
    match d
    case Higher => "HIGHER"
    case Lower => "LOWER"
  }

  const Expirations: seq<string> := ["1 min", "2 min", "3 min", "4 min", "5 min"]

  const BasePrice: real := 1.0850

  datatype Signal = Signal(pair: string, direction: Direction, expiration: string,
                           timestamp: int, entryPrice: real)

  /** The four draws one signal consumes, in the order the panel draws them. */
  datatype SignalDraws = SignalDraws(pair: real, direction: real, expiration: real, price: real)

  predicate ValidSignalDraws(d: SignalDraws)
  {
    IsDraw(d.pair) && IsDraw(d.direction) && IsDraw(d.expiration) && IsDraw(d.price)
  }

  /** `generateRandomSignal`'s signal: a listed pair, a direction that is
      HIGHER exactly when its draw exceeds one half, one of the five
      expirations, the current instant, and an entry price within half a
      cent of 1.0850. */
  function GenerateSignal(d: SignalDraws, now: int): (s: Signal)
    requires ValidSignalDraws(d)
    ensures s.pair in TradingPairs && s.expiration in Expirations && s.timestamp == now
    ensures s.direction == Higher <==> d.direction > 0.5
    ensures 1.0800 <= s.entryPrice < 1.0900
  {
    Signal(RandomPair(d.pair),
           if d.direction > 0.5 then Higher else Lower,
           Expirations[RandomIndex(d.expiration, |Expirations|)],
           now,
           BasePrice + (d.price - 0.5) * 0.01)
  }

  /** Every combination of pair, direction and expiration can be drawn. */
  lemma SignalCovers(k: nat, dir: Direction, e: nat, now: int)
    requires k < |TradingPairs| && e < |Expirations|
    ensures var d := SignalDraws(k as real / 20.0, if dir == Higher then 0.75 else 0.25,
                                 e as real / 5.0, 0.5);
      && ValidSignalDraws(d)
      && GenerateSignal(d, now) == Signal(TradingPairs[k], dir, Expirations[e], now, BasePrice)
  {
    RandomPairCovers(k, k as real / 20.0);
    var r := e as real / 5.0;
    assert r * 5.0 == e as real;
    assert (e as real).Floor == e;
  }

  /** The strategy-table key for a pair: the pair itself when listed (the
      table has an entry for each of the twenty pairs), EUR/USD otherwise. */
  function StrategyKey(pair: string): (k: string)
    ensures k in TradingPairs
    ensures pair in TradingPairs ==> k == pair
    ensures pair !in TradingPairs ==> k == TradingPairs[0]
  {
    if pair in TradingPairs then pair else "EUR/USD"
  }

  // ---------------------------------------------------------------------
  // When a signal is generated

  /** `isSignalTime`: in Moscow time, a slot hour, minute zero, and at most
      ten seconds past. */
  predicate IsSignalTime(now: int)
  {
    var w := MoscowFields(now);
    w.hour in Schedule.SignalHours && w.minute == 0 && w.second <= 10
  }

  /** The slot instant a signal time belongs to. */
  function SlotOf(now: int): (t: int)
    requires IsSignalTime(now)
    ensures Schedule.IsSlotInstant(t)
    ensures t <= now + MoscowOffsetMs < t + 11 * SecondMs
  {
    var m := now + MoscowOffsetMs;
    var w := UtcFields(m);
    Schedule.SlotOnDay(DayStart(m), w.hour);
    DayStart(m) + w.hour * HourMs
  }

  /** Conversely, every instant in the first eleven seconds after a slot
      instant is a signal time: the scheduled check fires on each of those
      seconds. */
  lemma SlotWindowIsSignalTime(now: int, t: int)
    requires Schedule.IsSlotInstant(t) && t <= now + MoscowOffsetMs < t + 11 * SecondMs
    ensures IsSignalTime(now)
  {
    var m := now + MoscowOffsetMs;
    var w := UtcFields(m);
    Schedule.SlotDecompose(t);
    var h := (t % DayMs) / HourMs;
    var day := DayStart(t);
    assert 0 <= h < 24;
    assert day <= m < day + DayMs;
    Schedule.DayStartsAreDaysApart(DayStart(m), day);
    assert DayStart(m) == day;
    assert m - day == h * HourMs + (m - t);
    assert w.hour * HourMs + w.minute * MinuteMs + w.second * SecondMs + w.millis
        == h * HourMs + (m - t);
    assert w.hour == h;
  }

  /** The timer-end trigger: the time left has just become one second. */
  predicate TimerEndFires(timeLeft: int)
  {
    timeLeft <= 1 && timeLeft > 0
  }

  /** The countdown the schedule clock reports never reaches the window of
      the timer-end trigger, so that trigger never generates a signal. */
  lemma TimerEndNeverFires(now: int)
    ensures !TimerEndFires(Schedule.CalculateTimeLeft(now).seconds)
  {
    Schedule.TimeLeftNeverEnds(now);
  }

  /** The express trigger: the press counter changed to a positive value. */
  predicate ExpressFires(prev: int, next: int)
  {
    next != prev && next > 0
  }

  /** A press on any of the four buttons generates a signal exactly when
      that button was ready. */
  lemma PressGeneratesSignal(b: Cooldowns.Board, c: Cooldowns.Category, now: int, pairDraw: real)
    requires IsDraw(pairDraw) && b.triggers >= 0
    ensures ExpressFires(b.triggers, Cooldowns.Trigger(b, c, now, pairDraw).triggers)
        <==> Cooldowns.Get(b, c).canUse
  {
  }

  // ---------------------------------------------------------------------
  // Progress and status

  /** The progress bar: the elapsed share of `maxTime`, in percent, clamped
      to [0, 100]; zero while no maximum is known. */
  function Progress(timeLeft: int, maxTime: int): (p: real)
    ensures 0.0 <= p <= 100.0
    ensures maxTime <= 0 ==> p == 0.0
  {
    if maxTime > 0 then
      MaxReal(0.0, MinReal(100.0, ((maxTime - timeLeft) as real / maxTime as real) * 100.0))
    else 0.0
  }

  /** Inside [0, maxTime] the clamp is inactive: the bar is the elapsed
      share, empty at `maxTime` and full at zero. */
  lemma ProgressInRange(timeLeft: int, maxTime: int)
    requires maxTime > 0 && 0 <= timeLeft <= maxTime
    ensures Progress(timeLeft, maxTime) * maxTime as real == (maxTime - timeLeft) as real * 100.0
    ensures timeLeft == maxTime ==> Progress(timeLeft, maxTime) == 0.0
    ensures timeLeft == 0 ==> Progress(timeLeft, maxTime) == 100.0
  {
    var m := maxTime as real;
    var q := (maxTime - timeLeft) as real / m;
    assert 0.0 <= q <= 1.0;
    assert Progress(timeLeft, maxTime) == q * 100.0;
  }

  /** Less time left never means less progress. */
  lemma ProgressMonotone(t1: int, t2: int, maxTime: int)
    requires t1 <= t2
    ensures Progress(t2, maxTime) <= Progress(t1, maxTime)
  {
    if maxTime > 0 {
      var m := maxTime as real;
      assert (maxTime - t2) as real / m <= (maxTime - t1) as real / m by {
        DivideMonotone((maxTime - t2) as real, (maxTime - t1) as real, m);
      }
    }
  }

  lemma DivideMonotone(a: real, b: real, m: real)
    requires a <= b && m > 0.0
    ensures a / m <= b / m
  {
    assert b / m - a / m == (b - a) / m;
  }

  /** The status line's five phases, in order. */
  datatype Phase = Initialization | DataCollection | TrendAnalysis | SignalFormation | ReadyToTrade

  function Rank(ph: Phase): nat
  {
    match ph
    case Initialization => 0
    case DataCollection => 1
    case TrendAnalysis => 2
    case SignalFormation => 3
    case ReadyToTrade => 4
  }

  function PhaseText(ph: Phase): string
  {
    match ph
    case Initialization => "Initialization..."
    case DataCollection => "Data collection..."
    case TrendAnalysis => "Trend analysis..."
    case SignalFormation => "Signal formation..."
    case ReadyToTrade => "Ready to trade!"
  }

  /** The progress at which each phase begins. */
  function Threshold(ph: Phase): real
  {
    match ph
    case Initialization => 0.0
    case DataCollection => 25.0
    case TrendAnalysis => 50.0
    case SignalFormation => 75.0
    case ReadyToTrade => 95.0
  }

  /** `getAnalysisStatus`: the phase for a progress value. The panel never
      calls it (it shows a fixed "Waiting for signal..." text instead), so
      this is a helper's behaviour, not something on screen. */
  function Status(progress: real): (ph: Phase)
    ensures ph == ReadyToTrade <==> progress >= 95.0
    ensures ph == Initialization <==> progress < 25.0
    ensures ph != Initialization ==> Threshold(ph) <= progress
    ensures forall next: Phase :: Rank(next) == Rank(ph) + 1 ==> progress < Threshold(next)
  {
    if progress < 25.0 then Initialization
    else if progress < 50.0 then DataCollection
    else if progress < 75.0 then TrendAnalysis
    else if progress < 95.0 then SignalFormation
    else ReadyToTrade
  }

  /** More progress never shows an earlier phase. */
  lemma StatusMonotone(p1: real, p2: real)
    requires p1 <= p2
    ensures Rank(Status(p1)) <= Rank(Status(p2))
  {
  }

  /** Fed by the schedule clock as written (at least 10799 seconds left out
      of 36000), the bar stays below 75%: the status never reaches "Signal
      formation..." or "Ready to trade!". */
  lemma StatusNeverReady(now: int)
    ensures var p := Progress(Schedule.CalculateTimeLeft(now).seconds, Schedule.MaxTimeToSignal);
      p < 75.0 && Rank(Status(p)) <= Rank(TrendAnalysis)
  {
    var c := Schedule.CalculateTimeLeft(now);
    Schedule.TimeLeftNeverEnds(now);
    ProgressMonotone(3 * 3600 - 1, c.seconds, Schedule.MaxTimeToSignal);
    var m := Schedule.MaxTimeToSignal as real;
    var q := (Schedule.MaxTimeToSignal - (3 * 3600 - 1)) as real / m;
    assert q * m == 25201.0;
    assert q * 100.0 < 75.0;
    assert Progress(3 * 3600 - 1, Schedule.MaxTimeToSignal) == q * 100.0;
  }

  // ---------------------------------------------------------------------
  // Typewriter

  /** One typing run: the text, what is shown of it, the next position, and
      whether the 30 ms interval is still running. */
  datatype Typewriter = Typewriter(text: string, displayed: string, index: nat, isTyping: bool)

  predicate TypewriterInv(t: Typewriter)
  {
    t.index <= |t.text| && t.displayed == t.text[..t.index]
    && (!t.isTyping ==> t.index == |t.text|)
  }

  function StartTyping(text: string): (t: Typewriter)
    ensures TypewriterInv(t) && t.isTyping && t.displayed == ""
  {
    Typewriter(text, "", 0, true)
  }

  /** One firing of the typing interval: show one more character, or, with
      the whole text shown, stop. A stopped run does not change. */
  function TypeTick(t: Typewriter): (r: Typewriter)
    ensures TypewriterInv(t) ==> TypewriterInv(r)
    ensures r.text == t.text
    ensures TypewriterInv(t) && t.isTyping && t.index < |t.text| ==>
      r.isTyping && r.displayed == t.displayed + [t.text[t.index]]
  {
    if !t.isTyping then t
    else if t.index < |t.text| then t.(displayed := t.text[..t.index + 1], index := t.index + 1)
    else t.(isTyping := false)
  }

  function TypeTicks(t: Typewriter, n: nat): Typewriter
    decreases n
  {
    if n == 0 then t else TypeTick(TypeTicks(t, n - 1))
  }

  /** After `n` firings the first `n` characters are shown (all of them once
      `n` reaches the length), and the run stops on the firing after the
      last character. */
  lemma {:induction false} TypingProgress(text: string, n: nat)
    ensures var t := TypeTicks(StartTyping(text), n);
      && t.text == text
      && t.index == Min(n, |text|)
      && t.displayed == text[..Min(n, |text|)]
      && t.isTyping == (n <= |text|)
      && TypewriterInv(t)
    decreases n
  {
    if n > 0 {
      TypingProgress(text, n - 1);
      var prev := TypeTicks(StartTyping(text), n - 1);
      assert TypeTicks(StartTyping(text), n) == TypeTick(prev);
      if n - 1 < |text| {
        assert prev.isTyping && prev.index == n - 1;
        assert TypeTick(prev).displayed == text[..n];
      }
    }
  }

  // ---------------------------------------------------------------------
  // The panel

  /** The panel's state. `strategyOf` stands for the strategy table: the
      text of the entry for a listed pair. */
  datatype Panel = Panel(signal: Option<Signal>, blinking: bool, strategyText: string, typing: Typewriter)

  predicate PanelInv(p: Panel)
  {
    && (p.blinking <==> p.signal.Some?)
    && (p.signal.Some? ==> p.signal.value.pair in TradingPairs && p.signal.value.expiration in Expirations)
    && p.typing.text == p.strategyText
    && TypewriterInv(p.typing)
  }

  const InitialPanel: Panel := Panel(None, false, "", Typewriter("", "", 0, false))

  /** `generateRandomSignal`: show a fresh signal blinking, and type out the
      strategy of its pair. */
  function Generate(p: Panel, d: SignalDraws, now: int, strategyOf: string -> string): (r: Panel)
    requires ValidSignalDraws(d)
    ensures r.signal == Some(GenerateSignal(d, now)) && r.blinking
    ensures r.strategyText == strategyOf(r.signal.value.pair)
    ensures r.typing == StartTyping(r.strategyText)
    ensures PanelInv(r)
  {
    var s := GenerateSignal(d, now);
    var text := strategyOf(StrategyKey(s.pair));
    Panel(Some(s), true, text, StartTyping(text))
  }

  /** The 60-second timeout each generation schedules: stop blinking and
      drop the signal. Timeouts are never cancelled, so an earlier one can
      clear a later signal. */
  function ClearSignal(p: Panel): (r: Panel)
    ensures r.signal.None? && !r.blinking
    ensures r.strategyText == p.strategyText && r.typing == p.typing
  {
    p.(signal := None, blinking := false)
  }

  /** The initialisation effect: while no strategy text is set, take the
      text for the selected pair (EUR/USD for an unlisted one) and type it. */
  function InitStrategy(p: Panel, currencyPair: string, strategyOf: string -> string): (r: Panel)
    ensures p.strategyText != "" ==> r == p
    ensures p.strategyText == "" ==>
      r.strategyText == strategyOf(StrategyKey(currencyPair))
      && r.typing == StartTyping(r.strategyText)
      && r.signal == p.signal && r.blinking == p.blinking
  {
    if p.strategyText == "" then
      var text := strategyOf(StrategyKey(currencyPair));
      p.(strategyText := text, typing := StartTyping(text))
    else p
  }

  function PanelTick(p: Panel): Panel
  {
    p.(typing := TypeTick(p.typing))
  }

  /** Every panel event keeps the panel invariant. */
  lemma PanelEventsKeepInv(p: Panel, d: SignalDraws, now: int, pair: string, strategyOf: string -> string)
    requires PanelInv(p) && ValidSignalDraws(d)
    ensures PanelInv(ClearSignal(p))
    ensures PanelInv(InitStrategy(p, pair, strategyOf))
    ensures PanelInv(PanelTick(p))
    ensures PanelInv(Generate(p, d, now, strategyOf))
  {
  }

  // ---------------------------------------------------------------------
  // Colours

  datatype Tone = Gray | Green | Red

  /** `getBlockBackgroundColor` as written: it tests the direction against
      "BUY", a value the direction never takes, so a blinking signal block
      is never green. The panel never calls this helper, so the mistake is
      not visible. */
  function BlockColor(signal: Option<Signal>, blinking: bool): (c: Tone)
    ensures c == Gray <==> signal.None? || !blinking
    ensures c != Green
  {
    if signal.None? || !blinking then Gray
    else if Label(signal.value.direction) == "BUY" then Green else Red
  }

  /** The evidently intended block colour: green for a blinking HIGHER
      signal, red for a blinking LOWER one. */
  function IntendedBlockColor(signal: Option<Signal>, blinking: bool): (c: Tone)
    ensures c == Gray <==> signal.None? || !blinking
    ensures c == Green <==> signal.Some? && blinking && signal.value.direction == Higher
    ensures c == Red <==> signal.Some? && blinking && signal.value.direction == Lower
  {
    if signal.None? || !blinking then Gray
    else if Label(signal.value.direction) == "HIGHER" then Green else Red
  }

  /** The signal card's gradient and leading arrow as written: they test the
      direction against the Cyrillic "ВЫШЕ" ("higher"), which the English
      labels never equal, so the card is always red with a down arrow. */
  function CardTone(d: Direction): (c: Tone)
    ensures c == Red
  {
    if Label(d) == "\U{412}\U{42b}\U{428}\U{415}" then Green else Red
  }

  /** The direction text under the pair compares with "HIGHER" and is
      coloured correctly. */
  function LabelTone(d: Direction): (c: Tone)
    ensures c == Green <==> d == Higher
    ensures c != Gray
  {
    if Label(d) == "HIGHER" then Green else Red
  }

  /** The evidently intended card tone, matching the direction text. */
  function IntendedCardTone(d: Direction): (c: Tone)
    ensures c == Green <==> d == Higher
    ensures c == LabelTone(d)
  {
    if Label(d) == "HIGHER" then Green else Red
  }

  /** On a HIGHER signal the card as written contradicts its own text: a
      red card with a down arrow around a green "HIGHER"; the intended card
      and the block agree with the text. */
  lemma HigherCardContradictsLabel(s: Signal)
    requires s.direction == Higher
    ensures CardTone(s.direction) == Red && LabelTone(s.direction) == Green
    ensures BlockColor(Some(s), true) == Red
    ensures IntendedCardTone(s.direction) == Green
    ensures IntendedBlockColor(Some(s), true) == Green
  {
  }
}

=== FILE: text.dfy ===
/** Decimal rendering of non-negative integers (`n.toString()`) and left
    padding (`padStart`), with the parser that undoes them. */
module Text {

  predicate IsDigit(c: char) { '0' <= c <= '9' }

  predicate AllDigits(s: string) { forall k :: 0 <= k < |s| ==> IsDigit(s[k]) }

  function DigitChar(d: nat): (c: char)
    requires d < 10
    ensures IsDigit(c)
  {
    (('0' as int) + d) as char
  }

  /** The digit a character stands for; meaningful for digits only. */
  function DigitValue(c: char): (d: int)
    ensures IsDigit(c) ==> 0 <= d < 10
  {
    (c as int) - ('0' as int)
  }

  /** `n.toString()` for a non-negative integer: no sign, no leading zero. */
  function Decimal(n: nat): (s: string)
    ensures |s| >= 1 && AllDigits(s)
    ensures |s| == 1 <==> n < 10
    ensures n < 100 ==> |s| <= 2
    decreases n
  {
    if n < 10 then [DigitChar(n)] else Decimal(n / 10) + [DigitChar(n % 10)]
  }

  /** The value of a string of decimal digits; leading zeros are allowed.
      Callers check `AllDigits` first. */
  function Value(s: string): int
    decreases |s|
  {
    if |s| == 0 then 0 else Value(s[..|s| - 1]) * 10 + DigitValue(s[|s| - 1])
  }

  /** Reading back a rendered number gives the number. */
  lemma {:induction false} DecimalRoundTrip(n: nat)
    ensures Value(Decimal(n)) == n
    decreases n
  {
    if n >= 10 {
      var s := Decimal(n);
      assert s[..|s| - 1] == Decimal(n / 10);
      DecimalRoundTrip(n / 10);
    }
  }

  /** `s.padStart(width, fill)`: `fill` repeated on the left up to `width`
      characters; a string already that long is returned unchanged. */
  function PadStart(s: string, width: nat, fill: char): (r: string)
    ensures |r| == if |s| >= width then |s| else width
    decreases width - |s|
  {
    if |s| >= width then s else PadStart([fill] + s, width, fill)
  }

  /** What `padStart` produces: `fill` characters on the left, then `s`. */
  lemma {:induction false} PadStartShape(s: string, width: nat, fill: char)
    ensures var r := PadStart(s, width, fill);
      && r[|r| - |s|..] == s
      && forall k :: 0 <= k < |r| - |s| ==> r[k] == fill
    decreases width - |s|
  {
    if |s| < width {
      PadStartShape([fill] + s, width, fill);
      var r := PadStart(s, width, fill);
      assert r[|r| - |s|..] == r[|r| - |s| - 1..][1..];
    }
  }

  /** Leading zeros do not change the value of a digit string. */
  lemma {:induction false} LeadingZero(s: string)
    requires AllDigits(s)
    ensures AllDigits(['0'] + s) && Value(['0'] + s) == Value(s)
    decreases |s|
  {
    var z := ['0'] + s;
    assert AllDigits(z) by {
      forall k | 0 <= k < |z| ensures IsDigit(z[k]) {
        if k > 0 { assert z[k] == s[k - 1]; }
      }
    }
    if |s| > 0 {
      assert z[..|z| - 1] == ['0'] + s[..|s| - 1];
      assert z[|z| - 1] == s[|s| - 1];
      LeadingZero(s[..|s| - 1]);
    }
  }

  /** Zero-padding a number keeps its value. */
  lemma {:induction false} PadKeepsValue(s: string, width: nat)
    requires AllDigits(s)
    ensures AllDigits(PadStart(s, width, '0'))
    ensures Value(PadStart(s, width, '0')) == Value(s)
    decreases width - |s|
  {
    if |s| < width {
      LeadingZero(s);
      PadKeepsValue(['0'] + s, width);
    }
  }

  /** A digit string has a non-negative value. */
  lemma {:induction false} ValueNonNegative(s: string)
    requires AllDigits(s)
    ensures Value(s) >= 0
    decreases |s|
  {
    if |s| > 0 {
      ValueNonNegative(s[..|s| - 1]);
    }
  }

  /** Digit strings of the same length and value are the same string: a
      fixed-width field is determined by the number it shows. */
  lemma {:induction false} FixedWidthUnique(s: string, t: string)
    requires AllDigits(s) && AllDigits(t) && |s| == |t| && Value(s) == Value(t)
    ensures s == t
    decreases |s|
  {
    if |s| > 0 {
      var n := |s| - 1;
      ValueNonNegative(s[..n]);
      ValueNonNegative(t[..n]);
      assert 0 <= DigitValue(s[n]) < 10 && 0 <= DigitValue(t[n]) < 10;
      assert Value(s) == Value(s[..n]) * 10 + DigitValue(s[n]);
      assert Value(t) == Value(t[..n]) * 10 + DigitValue(t[n]);
      assert DigitValue(s[n]) == DigitValue(t[n]) && Value(s[..n]) == Value(t[..n]);
      FixedWidthUnique(s[..n], t[..n]);
      assert s == s[..n] + [s[n]] && t == t[..n] + [t[n]];
    }
  }
}
